=== FILE: README.md ===
# Dejavu record/replay, modelled in Dafny

Dejavu records the calls that go through interface proxies of a Castle
Windsor container and replays them later. A *record interceptor* serializes
every intercepted call into two *context entries*: an entry record with the
arguments and an exit record with the return value or the thrown exception.
It stores them in a *context provider* under the lane of the calling thread.
A *replay interceptor* takes the entries back in the same order. When an
entry matches the call, it overwrites the arguments before the real
implementation runs. It then overwrites the return value, or throws the
recorded exception. This is how faults are injected.

The model covers:

- both interceptors;
- the three context providers: in memory, file and HTTP headers;
- the container hook that decides which components are intercepted.

Each operation is a pure function from the state before to the state after
(with the exception raised, when there is one). Objects are opaque values
with a runtime type. The serializer is a record of uninterpreted
conversions. What the proofs need from it is stated as two predicates:

- `EntriesRoundTrip`: an entry serializes to one non-empty line and reads
  back.
- `ValuesRoundTrip`: a value deserializes, with its own runtime type, back
  to itself.

An interception returns the store, the thread-to-lane map, the invocation
as the caller sees it, whether `Intercept` completed or raised, and a trace
of what it did: entries fetched, entries inserted, the implementation run.

The model follows the code where the code departs from what one might
expect:

- Recording swallows the implementation's exception: it is written to the
  exit record and not rethrown.
- A failed argument override leaves the arguments before the failing
  index already overwritten.
- An exit record read where an entry record was expected dereferences its
  null parameter array and throws before the implementation runs.
- The in-memory store keeps one cache for recording and replay, so
  starting or stopping a replay during a recording replaces or drops the
  recorded entries.
- Replaying a call that returned null, as every call of a void method
  does, throws a NullReferenceException. The return override asks the null
  return value for its runtime type (`RecordReplay.ReplayOfNullReturnThrows`).
- The HTTP entry index is one counter per request, shared by every lane,
  every write and every read. It wraps like an unchecked C# `int`.

Files: `values.dfy`, `decimal_format.dfy` (`int.ToString` and
`int.TryParse`), `context_entry.dfy`, `serializer.dfy`, `entry_cache.dfy`
(the per-lane queues), `line_format.dfy` (the dump/load format),
`mem_context_provider.dfy`, `file_context_provider.dfy`,
`http_context_provider.dfy`, `lane_registry.dfy`, `invocation.dfy`,
`context_store.dfy`, `record_interceptor.dfy`, `replay_interceptor.dfy`,
`record_replay.dfy` (record followed by replay) and
`interceptor_configuration.dfy`.

## Model

| member | source | states |
|---|---|---|
| Values.GetType | ReplayInterceptor.cs:126-127 | asking null for its type throws a NullReferenceException; an object answers its runtime type |
| Values.ResolveType | ReplayInterceptor.cs:213-217 | a type name loads exactly when the runtime knows it; otherwise a TypeLoadException naming it is thrown |
| Values.Thrown | ReplayInterceptor.cs:218-227 | throwing the deserialized object raises that object when it is an exception, an InvalidCastException for any other object, a NullReferenceException for null |
| Decimal.ParseInt | MemContextProvider.cs:34-39 | a lane line that parses holds a 32-bit integer and is not empty |
| Decimal.ParseFormat | MemContextProvider.cs:72 | a lane number written as text parses back to the same lane |
| Decimal.FormatIntInjective | HttpContextProvider.cs:110-117 | distinct integers format to distinct texts |
| Serializer.Serialize | JsonObjectSerializer.cs:16-23 | null serializes to the empty string |
| Serializer.SerializeEntry | MemContextProvider.cs:71 | a null entry is written as an empty line |
| EntryCache.Enqueue | MemContextProvider.cs:148-153 | the entry goes to the back of its lane's queue, which is created when missing; other lanes are untouched; each lane stays listed once |
| EntryCache.Dequeue | MemContextProvider.cs:163-174 | an empty or unknown lane answers null and changes nothing; otherwise the head is returned and removed, other lanes untouched |
| EntryCache.EnqueueAllQueues | MemContextProvider.cs:140-155 | under any interleaving of lanes, each lane's queue is its old contents followed by exactly the entries inserted on it, in order |
| EntryCache.DequeueNTakesPrefix | MemContextProvider.cs:157-175 | n fetches from a lane return the first n entries of its queue, oldest first, and leave the rest |
| EntryCache.FifoPerLane | MemContextProvider.cs:140-175 | what is inserted on a lane of a fresh cache is fetched back from it in insertion order |
| LineFormat.Load | MemContextProvider.cs:29-60 | a loaded cache lists each lane once and only lanes that have a queue |
| LineFormat.LoadPairLines | MemContextProvider.cs:29-60 | loading the two-line records of a run of insertions, up to a line where loading stops, performs exactly those insertions, null entries included |
| LineFormat.Save | MemContextProvider.cs:62-77 | dumping leaves every queue of the cache empty and its lanes in place |
| LineFormat.SaveLoadRoundTrip | MemContextProvider.cs:29-77 | dumping a cache and loading the dump restores every lane's queue, whatever the enumeration order of the lanes |
| MemContextProvider.StartRecording | MemContextProvider.cs:79-88 | a recording opens exactly when none is open, with a fresh cache; otherwise nothing changes |
| MemContextProvider.StopRecording | MemContextProvider.cs:90-106 | another id is refused with nothing changed; the open id writes exactly the dump of the cache and clears the id to empty and the cache to null; a null cache throws a NullReferenceException |
| MemContextProvider.StartReplaying | MemContextProvider.cs:113-122 | a replay opens exactly when none is open; the id is set even when loading throws, and then the cache is kept and the load's own exception reaches the caller |
| MemContextProvider.StopReplaying | MemContextProvider.cs:124-133 | only the open id closes the replay, clearing the id and nulling the shared cache |
| MemContextProvider.InsertEntry | MemContextProvider.cs:140-155 | without a cache the entry is dropped; otherwise it is appended to its lane's queue and other lanes are untouched |
| MemContextProvider.GetNextEntry | MemContextProvider.cs:157-175 | null without a cache or for an empty lane; otherwise the head of the lane's queue, which is removed |
| MemContextProvider.RecordingSessionDumps | MemContextProvider.cs:79-106 | a recording session dumps, when it stops, the lines of everything inserted meanwhile |
| MemContextProvider.RecordingDumpReplays | MemContextProvider.cs:79-122 | record, stop, then replay from the dump: each lane's queue holds exactly what was inserted on it, in order |
| MemContextProvider.ReplayStartReplacesRecording | MemContextProvider.cs:113-122 | opening a replay during a recording replaces the recorded entries, so the recording's dump writes the loaded ones |
| MemContextProvider.ReplayStopBreaksRecording | MemContextProvider.cs:124-133 | stopping a replay during a recording drops later insertions and makes stopping the recording throw |
| FileContextProvider.GetContextFile | FileContextProvider.cs:33-45 | the configured file name for the session type, or empty when it is missing or empty |
| FileContextProvider.GetRecordID | FileContextProvider.cs:83-92 | the log is opened by the first call that finds a file name and never again |
| FileContextProvider.GetReplayID | FileContextProvider.cs:94-103 | the replay file is loaded by the first call that finds a name while no cache is loaded; a missing file throws FileNotFound naming it, a load that fails throws the load's own error, and either leaves the state as it was |
| FileContextProvider.InsertEntry | FileContextProvider.cs:105-118 | with an open log, the lane line and the entry line are appended; without one, nothing happens |
| FileContextProvider.GetNextEntry | FileContextProvider.cs:120-138 | null without a cache or for an empty lane; otherwise the head of the lane's queue, which is removed |
| FileContextProvider.GetRecordIDOpensOnce | FileContextProvider.cs:83-92 | asking for the recording id again changes nothing |
| FileContextProvider.GetReplayIDLoadsOnce | FileContextProvider.cs:94-103 | after a successful load, asking for the replay id again changes nothing |
| FileContextProvider.InsertAllAppendsPairLines | FileContextProvider.cs:105-118 | the log grows by the two lines of each insertion, in insertion order |
| FileContextProvider.RecordedLogReplays | FileContextProvider.cs:47-103 | a log of insertions, given as the replay file, loads into queues that hold exactly the entries of each lane, in order |
| HttpContextProvider.GetContextID | HttpContextProvider.cs:29-48 | the first value of the session header, or empty when the header is missing or has no values |
| HttpContextProvider.Increment | HttpContextProvider.cs:102 | the counter steps by one and wraps from the largest int to the smallest |
| HttpContextProvider.GetNextEntryIndex | HttpContextProvider.cs:90-108 | the first index of a request is 0, each later one is one more than the last and wraps from the largest int to the smallest, and it is stored back |
| HttpContextProvider.InsertEntry | HttpContextProvider.cs:60-69 | takes the next index and sets the response header under lane and index to the serialized entry; the request headers are untouched |
| HttpContextProvider.GetNextEntry | HttpContextProvider.cs:71-88 | takes the next index even when it answers null; a missing or empty header gives null, otherwise the deserialized header value, read as `HeaderText`, the comma-joined values of the `StringValues` cast |
| HttpContextProvider.EntryContentKeyInjective | HttpContextProvider.cs:110-117 | the header key `GetEntryContentKey` builds, "dcec-" then lane then index: for non-negative lanes, two keys are equal exactly when lane and index are |
| HttpContextProvider.InsertAllWrites | HttpContextProvider.cs:60-69 | a run of insertions moves the counter on by its length and adds to the response headers exactly what the run writes |
| HttpContextProvider.WrittenHolds | HttpContextProvider.cs:60-69 | no later insertion overwrites an earlier one: headers holding what a run writes hold the k-th entry under its lane and the k-th index |
| HttpContextProvider.FetchAllReads | HttpContextProvider.cs:71-88 | request headers holding the k-th entry under its lane and index k give back the entries in order |
| HttpContextProvider.HeadersRecordedReplay | HttpContextProvider.cs:60-88 | the response headers of a recording request, sent back as request headers, replay every entry in order on the same lanes |
| LaneRegistry.GetThreadIndex | ReplayInterceptor.cs:30-39 | a known thread keeps its lane; a new thread gets the number of threads seen so far |
| LaneRegistry.GetThreadIndexKeepsValid | RecordInterceptor.cs:30-39 | lanes stay a numbering 0..n-1 of the n threads seen; a new thread's lane is not held by any other |
| LaneRegistry.LanesForStable | ReplayInterceptor.cs:30-39 | over a run of calls, every call gets its thread's lane and no lane given out changes |
| LaneRegistry.SameLaneSameThread | RecordInterceptor.cs:30-39 | two calls share a lane exactly when they come from the same thread |
| Invocations.Proceed | RecordInterceptor.cs:87 | the implementation runs on the current arguments; its return value is stored, or its exception is raised with the invocation unchanged |
| Invocations.Passthrough | RecordInterceptor.cs:47-52 | the implementation runs once on unchanged arguments and its exception reaches the caller |
| ContextStore.GetRecordID | IProvideContext.cs:8-11 | each store answers its own record id: the in-memory session id, the configured recording file name, or the recording header value; only the file store changes, by opening its log |
| ContextStore.GetRecordIDStable | IProvideContext.cs:8-11 | asking for the record id again changes nothing and gives the same answer |
| ContextStore.GetReplayID | IProvideContext.cs:16 | only the file store can throw when asked for the replay id, and then nothing changes |
| ContextStore.InsertEntry | IProvideContext.cs:18-21 | inserting an entry never changes the record id or the replay id a store answers |
| ContextStore.GetNextEntry | IProvideContext.cs:26 | only the HTTP store can throw when asked for the next entry |
| RecordInterceptor.SerializeAll | RecordInterceptor.cs:54-61 | all arguments serialize exactly when the list is produced, and then in order; otherwise the first failing argument's exception is raised |
| RecordInterceptor.EntryRecord | RecordInterceptor.cs:62-69 | the first record of a call carries parameters and no outcome, so it is never taken for an exit record |
| RecordInterceptor.FaultRecord | RecordInterceptor.cs:91-97 | a caught exception is recorded as its serialized text with its type name as error type; an exception that cannot be serialized escapes |
| RecordInterceptor.RunAndRecord | RecordInterceptor.cs:77-97 | the exit record has no parameters and names the call; a thrown exception, or a return value that cannot be serialized, is recorded as a fault |
| RecordInterceptor.Intercept | RecordInterceptor.cs:45-105 | recording never changes the arguments and runs the implementation at most once |
| RecordInterceptor.NotRecordingPassesThrough | RecordInterceptor.cs:47-52 | without a recording session nothing is written and the implementation's exception reaches the caller |
| RecordInterceptor.RecordingWritesPair | RecordInterceptor.cs:53-98 | while recording, the entry record, one run of the implementation and the exit record happen in that order on the thread's lane, and the call completes |
| RecordInterceptor.RecordingSwallowsFault | RecordInterceptor.cs:85-98 | while recording, the implementation's exception is written to the exit record and not rethrown |
| RecordInterceptor.UnserializableArgumentAborts | RecordInterceptor.cs:53-61 | an argument that cannot be serialized raises the serializer's exception after the lane is taken but before anything is written or run |
| RecordInterceptor.UnserializableFaultEscapes | RecordInterceptor.cs:91-98 | an exception that cannot be serialized escapes after the run, leaving the entry record without an exit record |
| RecordInterceptor.UnserializableReturnEscapes | RecordInterceptor.cs:85-97 | a return value that cannot be serialized, whose serializer exception cannot be serialized either, makes that exception escape after the run, leaving the entry record without an exit record |
| RecordInterceptor.RecordedParametersRestore | RecordInterceptor.cs:54-61 | each recorded parameter deserializes, with its argument's runtime type, back to that argument |
| ReplayInterceptor.Decoded | ReplayInterceptor.cs:124-136 | a null argument fails with a NullReferenceException; otherwise the parameter is deserialized with the argument's runtime type |
| ReplayInterceptor.OverrideFrom | ReplayInterceptor.cs:122-149 | the override succeeds exactly when every argument decodes, and then every argument is its decoded parameter; on failure, the arguments before the failing index are already overwritten and the rest are untouched |
| ReplayInterceptor.ProcessEntryOverride | ReplayInterceptor.cs:71-157 | a null entry, another class, another method or another argument count reject with that reason and the arguments untouched; an exit record read in the entry's place throws; the override is accepted exactly when every argument decodes; a matching entry of the right count is never rejected for any other reason, and an argument that fails to decode rejects with its index, the arguments before it overwritten with their decoded parameters and the rest untouched |
| ReplayInterceptor.ProcessReturnOverride | ReplayInterceptor.cs:159-230 | a missing entry, another class or another method keep the return value with that reason; a matching entry without error type replaces a non-null return value by the recorded one decoded with its runtime type, or throws the decoder's error, and a null return value throws; a recorded error type always throws: a TypeLoadException when the type does not load, the decoder's error when the text does not decode, otherwise the recorded exception |
| ReplayInterceptor.Intercept | ReplayInterceptor.cs:45-69 | replay runs the implementation at most once and never changes the number of arguments or the call's identity |
| ReplayInterceptor.NotReplayingPassesThrough | ReplayInterceptor.cs:47-52 | without a replay session nothing is fetched and the implementation's exception reaches the caller |
| ReplayInterceptor.RejectedOverrideFailsOpen | ReplayInterceptor.cs:55-63 | a rejected entry override lets the call run on the arguments as left, fetches nothing more, and leaves the exit record unread |
| ReplayInterceptor.MisreadExitRecordThrows | ReplayInterceptor.cs:110 | an exit record read as the entry record throws a NullReferenceException before the implementation runs |
| ReplayInterceptor.AcceptedOverrideReadsExit | ReplayInterceptor.cs:54-69 | after an accepted entry override the implementation runs exactly once on the overridden arguments; when it returns, a second entry is taken from the same lane and the return override decides the outcome; when it throws, nothing more is taken |
| ReplayInterceptor.StoreFailureRaises | ReplayInterceptor.cs:45-56 | a store that throws while the replay id is read, or while the first entry is taken, makes the call throw that exception before the implementation runs |
| ReplayInterceptor.HttpWithoutReplayHeaderPassesThrough | HttpContextProvider.cs:28-48 | a request without a value in the replay header is not replayed: the call passes straight through to the implementation |
| RecordReplay.MemRecordingAppendsPair | RecordInterceptor.cs:62-98 | recording on the in-memory store appends the entry record and then the exit record to the caller's lane only |
| RecordReplay.RecordedEntryRestoresArguments | ReplayInterceptor.cs:122-149 | a recorded entry record, replayed into a call of the same shape, restores exactly the recorded arguments |
| RecordReplay.ReplayRestoresReturn | ReplayInterceptor.cs:198-210 | replaying a recorded return runs the implementation on the recorded arguments, then returns the recorded value, and consumes the pair |
| RecordReplay.ReplayRaisesRecordedFault | ReplayInterceptor.cs:211-228 | replaying a recorded exception raises that same exception after the implementation ran on the recorded arguments |
| RecordReplay.ReplayOfNullReturnThrows | ReplayInterceptor.cs:198-204 | a call recorded as returning null (a void method) throws a NullReferenceException on replay |
| InterceptorConfiguration.FromTypes | InterceptorConfiguration.cs:22-28 | a type list builds a configuration exactly when no name repeats, holding exactly the listed names; a repeat throws an ArgumentException |
| InterceptorConfiguration.ProcessModel | InterceptorConfiguration.cs:33-47 | when some service is to be intercepted, the record and then the replay interceptor are appended once; otherwise the model is unchanged |
| InterceptorConfiguration.DefaultInterceptsAny | InterceptorConfiguration.cs:17-20 | the parameterless configuration intercepts a component exactly when it has a service |
| InterceptorConfiguration.FromTypesIntercepts | InterceptorConfiguration.cs:35-39 | `Intercepts`, the name test of the type set, holds for a configuration built from a list exactly when the service name is in the list |

## Left out

- The JSON and BSON serializers are not modelled. The codec is abstract. Its round-trip properties are assumptions stated as predicates, not facts proved about an encoding.
- Castle's `IInvocation` is reduced to the target type, method name, arguments and return value. Castle rejecting a null return value for a value-type method is not modelled.
- Logging is left out: it has no effect on the outcome.
- Locks, threads and concurrent interleavings are left out. Each operation is one atomic step, and the calling thread's managed id is a parameter.
- Real I/O is left out. A file is its sequence of lines, and reading past the end reads as an empty line; both uses of the value test for null or empty. The file store's log is kept apart from the readable files. `FileContextProvider.RecordedLogReplays` therefore takes the replay file's contents as a precondition.
- I/O errors other than a missing replay file are not modelled: permissions, a locked file, a full disk.
- The stream passed to the in-memory store's StopRecording and StartReplaying is a line list. Flushing is not modelled.
- Culture-specific number formatting is not modelled. `int.ToString` uses the invariant form, and `int.TryParse` accepts .NET white space, a sign and digits.
- Decimal.ParseInt: trailing NUL characters, which .NET also accepts, are not modelled.
- Null strings are not modelled for the ids passed to Start/Stop, for the class, method, return value and error type of an entry, or as header values. Only the parameter array of an entry is nullable.
- HTTP header names are compared case-sensitively here. ASP.NET compares them without regard to case.
- The HTTP item "dcei" always holds an `int` here. Another object there would fail the cast.
- One codec is shared by both interceptors and the store. The container may wire them with different serializers.
- HttpContextProvider.HeadersRecordedReplay: proved only for non-negative lanes and fewer than 2^31 entries per request. Negative lanes never occur. A wrapped counter would reuse keys.
- HttpContextProvider.GetContextID: an `HttpContext` is always present. Outside a request the accessor gives null, and the header lookup throws a NullReferenceException.
- ReplayInterceptor.Intercept: its own contract states only that the call's identity and argument count are kept and the implementation runs at most once. Every path is stated by the lemmas that follow it in the table.
- RecordInterceptor.Intercept: its own contract states only that arguments are preserved and the implementation runs at most once. Every branch is stated by the lemmas that follow it in the table.
- The composition of the two interceptors is not modelled. The record interceptor's `Proceed` runs the replay interceptor, and only then the implementation.
- Type resolution is a set of loadable names. Assembly loading and version binding are not modelled.

=== FILE: context_entry.dfy ===
/**
  The recorded unit. Every intercepted call that is recorded produces two
  context entries on its lane: an entry record holding the serialized
  arguments, and an exit record holding the serialized return value or
  exception. An exit record is told apart by its missing parameter array.
 */
module ContextEntries {
  import opened Values

  datatype ContextEntry = ContextEntry(
    className: TypeName,
    methodName: string,
    inputParameters: Option<seq<string>>,
    returnValue: string,
    errorType: string)

  /** The first record of a pair: arguments present, no outcome yet. */
  predicate IsEntryRecord(e: ContextEntry)
  {
    e.inputParameters.Some? && e.returnValue == "" && e.errorType == ""
  }

  /** The second record of a pair: `InputParameters` is null. */
  predicate IsExitRecord(e: ContextEntry)
  {
    e.inputParameters.None?
  }
}

=== FILE: context_store.dfy ===
/**
  `IProvideContext`: the store an interceptor talks to, as one of the three
  implementations. None of them looks at the context id passed to
  `InsertEntry` or `GetNextEntry`, so those calls here take only the lane.
  The session ids are `Option<string>`, `None` standing for null.
 */
module ContextStore {
  import opened Values
  import opened ContextEntries
  import opened Serializer
  import Mem = MemContextProvider
  import File = FileContextProvider
  import Http = HttpContextProvider

  datatype Store =
    | MemStore(mem: Mem.MemContext)
    | FileStore(file: File.FileContext)
    | HttpStore(http: Http.HttpContext)

  /** `GetRecordID()`; the file store may open its log. */
  function GetRecordID(s: Store): (r: (Store, Option<string>))
    ensures r.0.MemStore? == s.MemStore? && r.0.FileStore? == s.FileStore? && r.0.HttpStore? == s.HttpStore?
    ensures !s.FileStore? ==> r.0 == s
    ensures s.MemStore? ==> r.1 == s.mem.recordID
    ensures s.FileStore? ==> r.1 == Some(File.GetContextFile(s.file, File.RecordingType))
    ensures s.HttpStore? ==> r.1 == Some(Http.GetContextID(s.http, Http.RecordingType))
  {
    match s
    case MemStore(m) => (s, Mem.GetRecordID(m))
    case FileStore(f) =>
      var (f1, id) := File.GetRecordID(f);
      (FileStore(f1), Some(id))
    case HttpStore(h) => (s, Some(Http.GetRecordID(h)))
  }

  /** `GetReplayID()`; the file store may load its cache, and that load may throw. */
  function GetReplayID(c: Codec, s: Store): (r: Step<Store, Option<string>>)
    ensures r.state.MemStore? == s.MemStore? && r.state.FileStore? == s.FileStore? && r.state.HttpStore? == s.HttpStore?
    ensures !s.FileStore? ==> r.state == s && r.outcome.Ok?
    ensures r.outcome.Err? ==> r.state == s
  {
    match s
    case MemStore(m) => Step(s, Ok(Mem.GetReplayID(m)))
    case FileStore(f) =>
      var step := File.GetReplayID(c, f);
      if step.outcome.Ok? then Step(FileStore(step.state), Ok(Some(step.outcome.value)))
      else Step(s, Err(step.outcome.error))
    case HttpStore(h) => Step(s, Ok(Some(Http.GetReplayID(h))))
  }

  /** `InsertEntry(contextID, threadIndex, entry)`. */
  function InsertEntry(c: Codec, s: Store, lane: int, e: Option<ContextEntry>): (r: Store)
    ensures r.MemStore? == s.MemStore? && r.FileStore? == s.FileStore? && r.HttpStore? == s.HttpStore?
    ensures GetRecordID(r).1 == GetRecordID(s).1
    ensures GetReplayID(c, r).outcome == GetReplayID(c, s).outcome
  {
    match s
    case MemStore(m) => MemStore(Mem.InsertEntry(m, lane, e))
    case FileStore(f) => FileStore(File.InsertEntry(c, f, lane, e))
    case HttpStore(h) => HttpStore(Http.InsertEntry(c, h, lane, e))
  }

  /** `GetNextEntry(contextID, threadIndex)`; only the HTTP store deserializes here, so only it can throw. */
  function GetNextEntry(c: Codec, s: Store, lane: int): (r: Step<Store, Option<ContextEntry>>)
    ensures r.state.MemStore? == s.MemStore? && r.state.FileStore? == s.FileStore? && r.state.HttpStore? == s.HttpStore?
    ensures !s.HttpStore? ==> r.outcome.Ok?
  {
    match s
    case MemStore(m) =>
      var (m1, e) := Mem.GetNextEntry(m, lane);
      Step(MemStore(m1), Ok(e))
    case FileStore(f) =>
      var (f1, e) := File.GetNextEntry(f, lane);
      Step(FileStore(f1), Ok(e))
    case HttpStore(h) =>
      var step := Http.GetNextEntry(c, h, lane);
      Step(HttpStore(step.state), step.outcome)
  }

  /** Asking for the record id a second time changes nothing and gives the same answer. */
  lemma GetRecordIDStable(s: Store)
    ensures GetRecordID(GetRecordID(s).0) == GetRecordID(s)
  {
    if s.FileStore? {
      File.GetRecordIDOpensOnce(s.file);
    }
  }
}

=== FILE: decimal_format.dfy ===
/**
  Decimal text of 32-bit integers, as the line format and the HTTP header
  keys use it: `Int32.ToString()` when a lane or entry index is written,
  and `int.TryParse` when a lane line is read back.
 */
module Decimal {
  import opened Values

  const MinInt32: int := -0x8000_0000
  const MaxInt32: int := 0x7FFF_FFFF

  predicate IsInt32(n: int)
  {
    MinInt32 <= n <= MaxInt32
  }

  /** A C# `int`. */
  type Int32 = n: int | MinInt32 <= n <= MaxInt32

  predicate IsDigit(c: char)
  {
    '0' <= c <= '9'
  }

  predicate AllDigits(s: string)
  {
    forall i :: 0 <= i < |s| ==> IsDigit(s[i])
  }

  function DigitChar(d: nat): (c: char)
    requires d < 10
    ensures IsDigit(c)
  {
    ('0' as int + d) as char
  }

  function DigitValue(c: char): nat
    requires IsDigit(c)
  {
    c as int - '0' as int
  }

  /** The decimal digits of `n`, most significant first, with no leading zero. */
  function NatDigits(n: nat): (s: string)
    ensures |s| > 0 && AllDigits(s)
    decreases n
  {
    if n < 10 then [DigitChar(n)] else NatDigits(n / 10) + [DigitChar(n % 10)]
  }

  /** The number a non-empty or empty string of digits denotes. */
  function DigitsValue(s: string): nat
    requires AllDigits(s)
    decreases |s|
  {
    if |s| == 0 then 0 else DigitsValue(s[..|s| - 1]) * 10 + DigitValue(s[|s| - 1])
  }

  /** Reading back the digits of a natural number gives that number. */
  lemma {:induction false} DigitsValueOfNatDigits(n: nat)
    ensures DigitsValue(NatDigits(n)) == n
    decreases n
  {
    var s := NatDigits(n);
    if n >= 10 {
      DigitsValueOfNatDigits(n / 10);
      assert s[..|s| - 1] == NatDigits(n / 10);
    }
  }

  /** `Int32.ToString()`, with "-" as the negative sign (invariant culture). */
  function FormatInt(n: int): (s: string)
    ensures |s| > 0
    ensures n >= 0 ==> AllDigits(s)
    ensures n < 0 ==> s[0] == '-' && AllDigits(s[1..])
  {
    if n < 0 then "-" + NatDigits(-n) else NatDigits(n)
  }

  /** The characters `NumberStyles.AllowLeadingWhite` and `AllowTrailingWhite` skip: U+0009 to U+000D and U+0020. */
  predicate IsWhite(c: char)
  {
    c == ' ' || ('\t' <= c <= '\r')
  }

  function TrimStart(s: string): (r: string)
    decreases |s|
  {
    if |s| > 0 && IsWhite(s[0]) then TrimStart(s[1..]) else s
  }

  function TrimEnd(s: string): (r: string)
    decreases |s|
  {
    if |s| > 0 && IsWhite(s[|s| - 1]) then TrimEnd(s[..|s| - 1]) else s
  }

  /**
    `int.TryParse(s, out n)` with `NumberStyles.Integer`: optional white
    space around an optional sign and at least one decimal digit, and a
    value that fits 32 bits; anything else fails.
   */
  function ParseInt(s: string): (r: Option<int>)
    ensures r.Some? ==> IsInt32(r.value)
    ensures r.Some? ==> |s| > 0
  {
    var t := TrimEnd(TrimStart(s));
    var signed := |t| > 0 && (t[0] == '-' || t[0] == '+');
    var digits := if signed then t[1..] else t;
    if |digits| == 0 || !AllDigits(digits) then None
    else
      var magnitude := DigitsValue(digits);
      var n: int := if signed && t[0] == '-' then -(magnitude as int) else magnitude;
      if IsInt32(n) then Some(n) else None
  }

  /** A lane or index written with `ToString` is read back by `TryParse` as the same number. */
  lemma ParseFormat(n: int)
    requires IsInt32(n)
    ensures ParseInt(FormatInt(n)) == Some(n)
  {
    var s := FormatInt(n);
    assert !IsWhite(s[0]) && !IsWhite(s[|s| - 1]);
    assert TrimStart(s) == s;
    assert TrimEnd(s) == s;
    if n < 0 {
      DigitsValueOfNatDigits(-n);
      assert s[1..] == NatDigits(-n);
    } else {
      DigitsValueOfNatDigits(n);
    }
  }

  /** Distinct integers have distinct decimal text. */
  lemma FormatIntInjective(a: int, b: int)
    ensures FormatInt(a) == FormatInt(b) ==> a == b
  {
    if FormatInt(a) == FormatInt(b) {
      if a < 0 && b < 0 {
        assert NatDigits(-a) == FormatInt(a)[1..] == FormatInt(b)[1..] == NatDigits(-b);
        DigitsValueOfNatDigits(-a);
        DigitsValueOfNatDigits(-b);
      } else if a >= 0 && b >= 0 {
        DigitsValueOfNatDigits(a);
        DigitsValueOfNatDigits(b);
      }
    }
  }
}

=== FILE: entry_cache.dfy ===
/**
  The per-lane entry cache that the in-memory and file stores keep:
  an `IDictionary<int, Queue<ContextEntry>>` from lane to FIFO queue.
 */
module EntryCache {
  import opened Values
  import opened ContextEntries

  /** One lane's queue, oldest entry first. A loaded dump can hold null entries. */
  type Queue = seq<Option<ContextEntry>>

  /**
    The queues by lane, together with the lanes in the order they were
    added. Lanes are never removed, so that is also the order in which the
    dictionary enumerates them.
   */
  datatype Cache = Cache(queues: map<int, Queue>, lanes: seq<int>)

  /** Every lane is listed exactly once, and only lanes with a queue are listed. */
  ghost predicate Valid(c: Cache)
  {
    && (forall i, j :: 0 <= i < j < |c.lanes| ==> c.lanes[i] != c.lanes[j])
    && (forall l :: l in c.queues <==> l in c.lanes)
  }

  /** A fresh dictionary. */
  const Empty: Cache := Cache(map[], [])

  /** What a lane holds; a lane with no queue behaves as an empty one. */
  function QueueOf(c: Cache, lane: int): Queue
  {
    if lane in c.queues then c.queues[lane] else []
  }

  /** Appends to a lane's queue, creating the queue if the lane is new. */
  function Enqueue(c: Cache, lane: int, e: Option<ContextEntry>): (r: Cache)
    ensures QueueOf(r, lane) == QueueOf(c, lane) + [e]
    ensures forall l :: l != lane ==> QueueOf(r, l) == QueueOf(c, l)
    ensures forall l :: l in r.lanes ==> l in c.lanes || l == lane
    ensures Valid(c) ==> Valid(r)
  {
    if lane in c.queues then Cache(c.queues[lane := c.queues[lane] + [e]], c.lanes)
    else Cache(c.queues[lane := [e]], c.lanes + [lane])
  }

  /**
    Removes and returns the head of a lane's queue. An unknown lane and an
    empty queue both answer null and change nothing.
   */
  function Dequeue(c: Cache, lane: int): (r: (Cache, Option<ContextEntry>))
    ensures QueueOf(c, lane) == [] ==> r == (c, None)
    ensures QueueOf(c, lane) != [] ==> r.1 == QueueOf(c, lane)[0] && QueueOf(r.0, lane) == QueueOf(c, lane)[1..]
    ensures forall l :: l != lane ==> QueueOf(r.0, l) == QueueOf(c, l)
    ensures Valid(c) ==> Valid(r.0)
  {
    if lane !in c.queues || |c.queues[lane]| == 0 then (c, None)
    else (Cache(c.queues[lane := c.queues[lane][1..]], c.lanes), c.queues[lane][0])
  }

  /** One append: which lane, and what entry. */
  datatype Insertion = Insertion(lane: int, entry: Option<ContextEntry>)

  /** The entries of `ops` that went to `lane`, in order. */
  function OnLane(ops: seq<Insertion>, lane: int): Queue
    decreases |ops|
  {
    if |ops| == 0 then []
    else (if ops[0].lane == lane then [ops[0].entry] else []) + OnLane(ops[1..], lane)
  }

  /** The lanes named by a run of insertions. */
  function LanesOf(ops: seq<Insertion>): set<int>
  {
    set i | 0 <= i < |ops| :: ops[i].lane
  }

  /** Appends each insertion in turn. */
  function EnqueueAll(c: Cache, ops: seq<Insertion>): (r: Cache)
    ensures Valid(c) ==> Valid(r)
    ensures forall l :: l in r.lanes ==> l in c.lanes || l in LanesOf(ops)
    decreases |ops|
  {
    if |ops| == 0 then c else EnqueueAll(Enqueue(c, ops[0].lane, ops[0].entry), ops[1..])
  }

  /** Dequeues `n` times from one lane, collecting what each call returned. */
  function DequeueN(c: Cache, lane: int, n: nat): (r: (Cache, seq<Option<ContextEntry>>))
    decreases n
  {
    if n == 0 then (c, [])
    else
      var (c1, e) := Dequeue(c, lane);
      var (c2, es) := DequeueN(c1, lane, n - 1);
      (c2, [e] + es)
  }

  lemma {:induction false} OnLaneAppend(a: seq<Insertion>, b: seq<Insertion>, lane: int)
    ensures OnLane(a + b, lane) == OnLane(a, lane) + OnLane(b, lane)
    decreases |a|
  {
    if |a| > 0 {
      assert (a + b)[1..] == a[1..] + b;
      OnLaneAppend(a[1..], b, lane);
    } else {
      assert a + b == b;
    }
  }

  /**
    Per-lane FIFO under any interleaving of lanes: after a run of appends,
    each lane's queue is its old contents followed by exactly the entries
    appended to it, in append order.
   */
  lemma {:induction false} EnqueueAllQueues(c: Cache, ops: seq<Insertion>, lane: int)
    ensures QueueOf(EnqueueAll(c, ops), lane) == QueueOf(c, lane) + OnLane(ops, lane)
    decreases |ops|
  {
    if |ops| > 0 {
      var c1 := Enqueue(c, ops[0].lane, ops[0].entry);
      EnqueueAllQueues(c1, ops[1..], lane);
    }
  }

  /** Dequeuing returns a lane's entries oldest first, and leaves the rest queued. */
  lemma {:induction false} DequeueNTakesPrefix(c: Cache, lane: int, n: nat)
    requires n <= |QueueOf(c, lane)|
    ensures DequeueN(c, lane, n).1 == QueueOf(c, lane)[..n]
    ensures QueueOf(DequeueN(c, lane, n).0, lane) == QueueOf(c, lane)[n..]
    decreases n
  {
    if n > 0 {
      var (c1, e) := Dequeue(c, lane);
      DequeueNTakesPrefix(c1, lane, n - 1);
      assert QueueOf(c1, lane) == QueueOf(c, lane)[1..];
      assert QueueOf(c, lane)[..n] == [e] + QueueOf(c, lane)[1..][..n - 1];
    }
  }

  /** Whatever is appended to a lane of a fresh cache is fetched back from it in the same order. */
  lemma FifoPerLane(ops: seq<Insertion>, lane: int)
    ensures var q := OnLane(ops, lane); DequeueN(EnqueueAll(Empty, ops), lane, |q|).1 == q
  {
    EnqueueAllQueues(Empty, ops, lane);
    DequeueNTakesPrefix(EnqueueAll(Empty, ops), lane, |OnLane(ops, lane)|);
  }
}

=== FILE: file_context_provider.dfy ===
/**
  The file store. The session ids are file names read from configuration
  ("dcir" for recording, "dcip" for replay). Recording appends the line
  format to a log file opened on first use; replay loads the named file
  into a per-lane cache on first use. The file system is modelled as the
  lines of the files that can be read, plus the one log being written.
 */
module FileContextProvider {
  import opened Values
  import opened Decimal
  import opened ContextEntries
  import opened Serializer
  import opened EntryCache
  import opened LineFormat

  const RecordingType: string := "r"
  const ReplayingType: string := "p"

  /** The configuration key pattern "dci{0}" (dejavu-context-id). */
  function ContextIdKey(contextType: string): string
  {
    "dci" + contextType
  }

  /** The log opened by `new StreamWriter(fileName)`: its name and the lines written so far. */
  datatype Log = Log(fileName: string, lines: seq<string>)

  datatype FileContext = FileContext(
    configuration: map<string, string>,
    files: map<string, seq<string>>,
    writer: Option<Log>,
    cache: Option<Cache>)

  /** The configured file name for a session type; a missing or empty value gives "". */
  function GetContextFile(f: FileContext, contextType: string): (r: string)
    ensures r != "" <==> ContextIdKey(contextType) in f.configuration && f.configuration[ContextIdKey(contextType)] != ""
    ensures r != "" ==> r == f.configuration[ContextIdKey(contextType)]
  {
    var key := ContextIdKey(contextType);
    if key !in f.configuration || f.configuration[key] == "" then "" else f.configuration[key]
  }

  /** The recording file name; the first call that sees a name opens the log, later calls reuse it. */
  function GetRecordID(f: FileContext): (r: (FileContext, string))
    ensures r.1 == GetContextFile(f, RecordingType)
    ensures r.0.configuration == f.configuration && r.0.files == f.files && r.0.cache == f.cache
    ensures r.0.writer.Some? <==> f.writer.Some? || r.1 != ""
    ensures f.writer.Some? ==> r.0 == f
    ensures f.writer.None? && r.1 != "" ==> r.0.writer == Some(Log(r.1, []))
  {
    var fileName := GetContextFile(f, RecordingType);
    if fileName != "" && f.writer.None? then (f.(writer := Some(Log(fileName, []))), fileName)
    else (f, fileName)
  }

  /**
    The replay file name; the first call that sees a name while no cache is
    loaded reads the file into the cache. A missing file or an undecodable
    entry throws and leaves the cache null, so the next call tries again.
   */
  function GetReplayID(c: Codec, f: FileContext): (r: Step<FileContext, string>)
    ensures r.state.configuration == f.configuration && r.state.files == f.files && r.state.writer == f.writer
    ensures r.outcome.Ok? ==> r.outcome.value == GetContextFile(f, ReplayingType)
    ensures GetContextFile(f, ReplayingType) == "" || f.cache.Some? ==> r.state == f && r.outcome.Ok?
    ensures r.outcome.Err? ==> r.state == f && f.cache.None?
    ensures GetContextFile(f, ReplayingType) != "" && f.cache.None? && GetContextFile(f, ReplayingType) !in f.files ==>
              r.outcome == Err(FileNotFoundException(GetContextFile(f, ReplayingType)))
    ensures GetContextFile(f, ReplayingType) != "" && f.cache.None? && GetContextFile(f, ReplayingType) in f.files
            && Load(c, f.files[GetContextFile(f, ReplayingType)]).Err? ==>
              r.outcome == Err(Load(c, f.files[GetContextFile(f, ReplayingType)]).error)
    ensures f.cache.None? && r.outcome.Ok? && r.outcome.value != "" ==>
      && r.outcome.value in f.files
      && Load(c, f.files[r.outcome.value]).Ok?
      && r.state.cache == Some(Load(c, f.files[r.outcome.value]).value)
  {
    var fileName := GetContextFile(f, ReplayingType);
    if fileName == "" || f.cache.Some? then Step(f, Ok(fileName))
    else if fileName !in f.files then Step(f, Err(FileNotFoundException(fileName)))
    else
      match Load(c, f.files[fileName])
      case Err(e) => Step(f, Err(e))
      case Ok(cache) => Step(f.(cache := Some(cache)), Ok(fileName))
  }

  /** Writes the lane line and the entry line to the log; dropped while no log is open. */
  function InsertEntry(c: Codec, f: FileContext, lane: int, e: Option<ContextEntry>): (r: FileContext)
    ensures r.configuration == f.configuration && r.files == f.files && r.cache == f.cache
    ensures f.writer.None? ==> r == f
    ensures f.writer.Some? ==>
      && r.writer.Some? && r.writer.value.fileName == f.writer.value.fileName
      && r.writer.value.lines == f.writer.value.lines + [FormatInt(lane), SerializeEntry(c, e)]
  {
    match f.writer
    case None => f
    case Some(log) => f.(writer := Some(log.(lines := log.lines + [FormatInt(lane), SerializeEntry(c, e)])))
  }

  /** Takes the head of the lane's queue, as the in-memory store does. */
  function GetNextEntry(f: FileContext, lane: int): (r: (FileContext, Option<ContextEntry>))
    ensures r.0.configuration == f.configuration && r.0.files == f.files && r.0.writer == f.writer
    ensures f.cache.None? ==> r == (f, None)
    ensures f.cache.Some? && QueueOf(f.cache.value, lane) == [] ==> r == (f, None)
    ensures f.cache.Some? && QueueOf(f.cache.value, lane) != [] ==>
      && r.0.cache.Some?
      && r.1 == QueueOf(f.cache.value, lane)[0]
      && QueueOf(r.0.cache.value, lane) == QueueOf(f.cache.value, lane)[1..]
      && forall l :: l != lane ==> QueueOf(r.0.cache.value, l) == QueueOf(f.cache.value, l)
  {
    match f.cache
    case None => (f, None)
    case Some(cache) =>
      var (cache1, e) := Dequeue(cache, lane);
      (f.(cache := Some(cache1)), e)
  }

  /** Inserts each entry in turn. */
  function InsertAll(c: Codec, f: FileContext, ops: seq<Insertion>): (r: FileContext)
    decreases |ops|
  {
    if |ops| == 0 then f else InsertAll(c, InsertEntry(c, f, ops[0].lane, ops[0].entry), ops[1..])
  }

  /** The log opens at most once: asking for the recording id again changes nothing. */
  lemma GetRecordIDOpensOnce(f: FileContext)
    ensures var (f1, id) := GetRecordID(f); GetRecordID(f1) == (f1, id)
  {
  }

  /** The replay file loads at most once: after a successful load, asking again changes nothing. */
  lemma GetReplayIDLoadsOnce(c: Codec, f: FileContext)
    requires GetReplayID(c, f).outcome.Ok?
    ensures var r := GetReplayID(c, f); GetReplayID(c, r.state) == r
  {
  }

  /** The log of an open writer grows by the two lines of each insertion, in insertion order. */
  lemma {:induction false} InsertAllAppendsPairLines(c: Codec, f: FileContext, ops: seq<Insertion>)
    requires f.writer.Some?
    ensures var r := InsertAll(c, f, ops);
            && r.writer.Some? && r.writer.value.fileName == f.writer.value.fileName
            && r.writer.value.lines == f.writer.value.lines + PairLines(c, ops)
            && r.cache == f.cache
    decreases |ops|
  {
    if |ops| > 0 {
      var f1 := InsertEntry(c, f, ops[0].lane, ops[0].entry);
      InsertAllAppendsPairLines(c, f1, ops[1..]);
      assert f.writer.value.lines + PairLines(c, ops)
          == f1.writer.value.lines + PairLines(c, ops[1..]);
    }
  }

  /**
    A log written from a fresh writer, configured as the replay file of a
    store with no cache, is loaded so that every lane's queue holds exactly
    the entries inserted on that lane, in insertion order.
   */
  lemma RecordedLogReplays(c: Codec, ops: seq<Insertion>, replayer: FileContext)
    requires EntriesRoundTrip(c)
    requires forall i :: 0 <= i < |ops| ==> IsInt32(ops[i].lane)
    requires replayer.cache.None?
    requires GetContextFile(replayer, ReplayingType) != ""
    requires GetContextFile(replayer, ReplayingType) in replayer.files
    requires replayer.files[GetContextFile(replayer, ReplayingType)] == PairLines(c, ops)
    ensures GetReplayID(c, replayer).outcome == Ok(GetContextFile(replayer, ReplayingType))
    ensures forall lane :: QueueOf(GetReplayID(c, replayer).state.cache.value, lane) == OnLane(ops, lane)
  {
    assert PairLines(c, ops) + [] == PairLines(c, ops);
    LoadPairLines(c, ops, EntryCache.Empty, []);
    forall lane ensures QueueOf(EnqueueAll(EntryCache.Empty, ops), lane) == OnLane(ops, lane) {
      EnqueueAllQueues(EntryCache.Empty, ops, lane);
    }
  }
}

=== FILE: http_context_provider.dfy ===
/**
  The HTTP store. Session ids come from request headers ("dcir", "dcip").
  Entries are written to response headers and read from request headers
  under the key "dcec-{lane}-{index}", where the index is one counter per
  request, kept in the request's item bag under "dcei" and shared by every
  write, every read and every lane.
 */
module HttpContextProvider {
  import opened Values
  import opened Decimal
  import opened ContextEntries
  import opened Serializer

  const RecordingType: string := "r"
  const ReplayingType: string := "p"

  /** The header-name pattern "dci{0}" (dejavu-context-id). */
  function ContextIdHeader(contextType: string): string
  {
    "dci" + contextType
  }

  /**
    The parts of the current `HttpContext` the store touches: request and
    response headers (each a list of values) and the "dcei" item, the last
    entry index handed out in this request.
   */
  datatype HttpContext = HttpContext(
    requestHeaders: map<string, seq<string>>,
    responseHeaders: map<string, seq<string>>,
    entryIndex: Option<Int32>)

  /** The first value of the session header; an absent header or one with no values gives "". */
  function GetContextID(h: HttpContext, contextType: string): (r: string)
    ensures var name := ContextIdHeader(contextType);
            if name in h.requestHeaders && |h.requestHeaders[name]| > 0
            then r == h.requestHeaders[name][0]
            else r == ""
  {
    var name := ContextIdHeader(contextType);
    if name !in h.requestHeaders || |h.requestHeaders[name]| == 0 then "" else h.requestHeaders[name][0]
  }

  function GetRecordID(h: HttpContext): string
  {
    GetContextID(h, RecordingType)
  }

  function GetReplayID(h: HttpContext): string
  {
    GetContextID(h, ReplayingType)
  }

  /** `(int)previous + 1` in unchecked 32-bit arithmetic. */
  function Increment(n: Int32): (r: Int32)
    ensures n < MaxInt32 ==> r == n + 1
    ensures n == MaxInt32 ==> r == MinInt32
  {
    if n == MaxInt32 then MinInt32 else n + 1
  }

  /** Hands out the next entry index of the request: 0 first, then one more each time, stored back. */
  function GetNextEntryIndex(h: HttpContext): (r: (HttpContext, Int32))
    ensures h.entryIndex.None? ==> r.1 == 0
    ensures h.entryIndex.Some? && h.entryIndex.value < MaxInt32 ==> r.1 == h.entryIndex.value + 1
    ensures h.entryIndex == Some(MaxInt32) ==> r.1 == MinInt32
    ensures r.0 == h.(entryIndex := Some(r.1))
  {
    var index: Int32 := if h.entryIndex.None? then 0 else Increment(h.entryIndex.value);
    (h.(entryIndex := Some(index)), index)
  }

  /** The header key pattern "dcec-{0}-{1}" (dejavu-context-entry-content). */
  function GetEntryContentKey(lane: int, index: int): string
  {
    "dcec-" + FormatInt(lane) + "-" + FormatInt(index)
  }

  /** `(string)StringValues`: null for no values, the value for one, the values joined by "," for more. */
  function HeaderText(values: seq<string>): string
    decreases |values|
  {
    if |values| == 0 then ""
    else if |values| == 1 then values[0]
    else HeaderText(values[..|values| - 1]) + "," + values[|values| - 1]
  }

  /** Takes the next index and sets the response header under that key to the serialized entry. */
  function InsertEntry(c: Codec, h: HttpContext, lane: int, e: Option<ContextEntry>): (r: HttpContext)
    ensures r.requestHeaders == h.requestHeaders
    ensures r.entryIndex == GetNextEntryIndex(h).0.entryIndex
    ensures var key := GetEntryContentKey(lane, GetNextEntryIndex(h).1);
            r.responseHeaders == h.responseHeaders[key := [SerializeEntry(c, e)]]
  {
    var (h1, index) := GetNextEntryIndex(h);
    var key := GetEntryContentKey(lane, index);
    h1.(responseHeaders := h1.responseHeaders[key := [SerializeEntry(c, e)]])
  }

  /**
    Takes the next index and reads the request header under that key: null
    when it is missing or empty, otherwise the deserialized entry. The index
    is consumed either way.
   */
  function GetNextEntry(c: Codec, h: HttpContext, lane: int): (r: Step<HttpContext, Option<ContextEntry>>)
    ensures r.state == GetNextEntryIndex(h).0
    ensures var key := GetEntryContentKey(lane, GetNextEntryIndex(h).1);
            var text := if key in h.requestHeaders then HeaderText(h.requestHeaders[key]) else "";
            && (text == "" ==> r.outcome == Ok(None))
            && (text != "" ==> r.outcome == c.decodeEntry(text))
  {
    var (h1, index) := GetNextEntryIndex(h);
    var key := GetEntryContentKey(lane, index);
    var text := if key in h.requestHeaders then HeaderText(h.requestHeaders[key]) else "";
    if text == "" then Step(h1, Ok(None))
    else Step(h1, c.decodeEntry(text))
  }

  /** The text before the first "-" and the text after it (the whole text and "" when there is none). */
  function SplitAtDash(s: string): (string, string)
    decreases |s|
  {
    if |s| == 0 then ("", "")
    else if s[0] == '-' then ("", s[1..])
    else
      var (before, after) := SplitAtDash(s[1..]);
      ([s[0]] + before, after)
  }

  /** Digits hold no "-", so a dash after them ends them. */
  lemma {:induction false} SplitAfterDigits(digits: string, rest: string)
    requires AllDigits(digits)
    ensures SplitAtDash(digits + "-" + rest) == (digits, rest)
    decreases |digits|
  {
    var s := digits + "-" + rest;
    if |digits| == 0 {
      assert s == "-" + rest;
    } else {
      assert s[0] == digits[0] && IsDigit(digits[0]);
      assert s[1..] == digits[1..] + "-" + rest;
      assert AllDigits(digits[1..]);
      SplitAfterDigits(digits[1..], rest);
      assert [digits[0]] + digits[1..] == digits;
    }
  }

  /** Past the "dcec-" prefix, a key of a non-negative lane splits into the lane text and the index text. */
  lemma KeySplit(lane: int, index: int)
    requires lane >= 0
    ensures SplitAtDash(GetEntryContentKey(lane, index)[5..]) == (FormatInt(lane), FormatInt(index))
  {
    assert GetEntryContentKey(lane, index)[5..] == FormatInt(lane) + "-" + FormatInt(index);
    SplitAfterDigits(FormatInt(lane), FormatInt(index));
  }

  /** For non-negative lanes, distinct (lane, index) pairs give distinct header keys. */
  lemma EntryContentKeyInjective(lane: int, index: int, lane': int, index': int)
    requires lane >= 0 && lane' >= 0
    ensures GetEntryContentKey(lane, index) == GetEntryContentKey(lane', index') <==> lane == lane' && index == index'
  {
    if GetEntryContentKey(lane, index) == GetEntryContentKey(lane', index') {
      KeySplit(lane, index);
      KeySplit(lane', index');
      FormatIntInjective(lane, lane');
      FormatIntInjective(index, index');
    }
  }

  /** The lane of each call, in call order. */
  function InsertAll(c: Codec, h: HttpContext, lanes: seq<int>, entries: seq<Option<ContextEntry>>): (r: HttpContext)
    requires |lanes| == |entries|
    decreases |lanes|
  {
    if |lanes| == 0 then h else InsertAll(c, InsertEntry(c, h, lanes[0], entries[0]), lanes[1..], entries[1..])
  }

  /** Fetches once for each lane in turn, stopping at the first fetch that throws. */
  function FetchAll(c: Codec, h: HttpContext, lanes: seq<int>): (r: Result<seq<Option<ContextEntry>>>)
    decreases |lanes|
  {
    if |lanes| == 0 then Ok([])
    else
      var s := GetNextEntry(c, h, lanes[0]);
      match s.outcome
      case Err(e) => Err(e)
      case Ok(e) =>
        match FetchAll(c, s.state, lanes[1..])
        case Err(x) => Err(x)
        case Ok(es) => Ok([e] + es)
  }

  /** The counter of a request in which `start` indices have been handed out. */
  predicate CounterAt(h: HttpContext, start: nat)
  {
    if start == 0 then h.entryIndex.None? else h.entryIndex.Some? && h.entryIndex.value == start - 1
  }

  /** The response headers a run of insertions writes, from the counter standing at `start`; a later write of the same key wins. */
  function Written(c: Codec, lanes: seq<int>, entries: seq<Option<ContextEntry>>, start: int): map<string, seq<string>>
    requires |lanes| == |entries|
    decreases |lanes|
  {
    if |lanes| == 0 then map[]
    else map[GetEntryContentKey(lanes[0], start) := [SerializeEntry(c, entries[0])]] + Written(c, lanes[1..], entries[1..], start + 1)
  }

  /**
    In a request whose counter stands at `start` and does not wrap, a run of
    insertions leaves the request headers alone, moves the counter on by the
    number of insertions and overwrites the response headers with exactly
    what the run writes.
   */
  lemma {:induction false} InsertAllWrites(c: Codec, h: HttpContext, lanes: seq<int>, entries: seq<Option<ContextEntry>>, start: nat)
    requires |lanes| == |entries|
    requires CounterAt(h, start)
    requires start + |lanes| <= MaxInt32
    ensures var r := InsertAll(c, h, lanes, entries);
            && r.requestHeaders == h.requestHeaders
            && CounterAt(r, start + |lanes|)
            && r.responseHeaders == h.responseHeaders + Written(c, lanes, entries, start)
    decreases |lanes|
  {
    if |lanes| > 0 {
      InsertFirst(c, h, lanes[0], entries[0], start);
      var h1 := InsertEntry(c, h, lanes[0], entries[0]);
      var w0 := map[GetEntryContentKey(lanes[0], start) := [SerializeEntry(c, entries[0])]];
      InsertAllWrites(c, h1, lanes[1..], entries[1..], start + 1);
      var w1 := Written(c, lanes[1..], entries[1..], start + 1);
      assert Written(c, lanes, entries, start) == w0 + w1;
      UnionAssociative(h.responseHeaders, w0, w1);
    }
  }

  /** One insertion at counter `start` writes its entry under index `start` and moves the counter on. */
  lemma InsertFirst(c: Codec, h: HttpContext, lane: int, e: Option<ContextEntry>, start: nat)
    requires CounterAt(h, start) && start < MaxInt32
    ensures var r := InsertEntry(c, h, lane, e);
            && r.requestHeaders == h.requestHeaders
            && CounterAt(r, start + 1)
            && r.responseHeaders == h.responseHeaders + map[GetEntryContentKey(lane, start) := [SerializeEntry(c, e)]]
  {
    assert GetNextEntryIndex(h).1 == start;
  }

  lemma UnionAssociative<K, V>(a: map<K, V>, b: map<K, V>, d: map<K, V>)
    ensures (a + b) + d == a + (b + d)
  {
  }

  /** With non-negative lanes, a key a run writes from counter `start` has an index of at least `start`. */
  lemma {:induction false} WrittenIndexBound(c: Codec, lanes: seq<int>, entries: seq<Option<ContextEntry>>, start: int, lane: int, index: int)
    requires |lanes| == |entries|
    requires forall j :: 0 <= j < |lanes| ==> lanes[j] >= 0
    requires lane >= 0 && GetEntryContentKey(lane, index) in Written(c, lanes, entries, start)
    ensures start <= index
    decreases |lanes|
  {
    if GetEntryContentKey(lane, index) == GetEntryContentKey(lanes[0], start) {
      EntryContentKeyInjective(lane, index, lanes[0], start);
    } else {
      assert forall j :: 0 <= j < |lanes[1..]| ==> lanes[1..][j] >= 0;
      WrittenIndexBound(c, lanes[1..], entries[1..], start + 1, lane, index);
    }
  }

  /** The first insertion of a run is not overwritten by a later one. */
  lemma WrittenAtHead(c: Codec, lanes: seq<int>, entries: seq<Option<ContextEntry>>, start: int)
    requires |lanes| == |entries| && |lanes| > 0
    requires forall j :: 0 <= j < |lanes| ==> lanes[j] >= 0
    ensures GetEntryContentKey(lanes[0], start) in Written(c, lanes, entries, start)
    ensures Written(c, lanes, entries, start)[GetEntryContentKey(lanes[0], start)] == [SerializeEntry(c, entries[0])]
  {
    var key0 := GetEntryContentKey(lanes[0], start);
    if key0 in Written(c, lanes[1..], entries[1..], start + 1) {
      assert forall j :: 0 <= j < |lanes[1..]| ==> lanes[1..][j] >= 0;
      WrittenIndexBound(c, lanes[1..], entries[1..], start + 1, lanes[0], start);
      assert false;
    }
  }

  /**
    Headers that hold, under lane `lanes[k]` and index `start + k`, the
    serialized `entries[k]`, for every k.
   */
  predicate HeadersHold(c: Codec, headers: map<string, seq<string>>, lanes: seq<int>, entries: seq<Option<ContextEntry>>, start: int)
    requires |lanes| == |entries|
    decreases |lanes|
  {
    |lanes| == 0 ||
      (&& GetEntryContentKey(lanes[0], start) in headers
       && headers[GetEntryContentKey(lanes[0], start)] == [SerializeEntry(c, entries[0])]
       && HeadersHold(c, headers, lanes[1..], entries[1..], start + 1))
  }

  /**
    With non-negative lanes no insertion of a run overwrites another, so
    headers that contain everything the run writes hold each entry under
    its own lane and index.
   */
  lemma {:induction false} WrittenHolds(c: Codec, lanes: seq<int>, entries: seq<Option<ContextEntry>>, start: int, headers: map<string, seq<string>>)
    requires |lanes| == |entries|
    requires forall j :: 0 <= j < |lanes| ==> lanes[j] >= 0
    requires forall key :: key in Written(c, lanes, entries, start) ==> key in headers && headers[key] == Written(c, lanes, entries, start)[key]
    ensures HeadersHold(c, headers, lanes, entries, start)
    decreases |lanes|
  {
    if |lanes| > 0 {
      WrittenAtHead(c, lanes, entries, start);
      var w1 := Written(c, lanes[1..], entries[1..], start + 1);
      assert forall key :: key in w1 ==> key in Written(c, lanes, entries, start) && Written(c, lanes, entries, start)[key] == w1[key];
      assert forall j :: 0 <= j < |lanes[1..]| ==> lanes[1..][j] >= 0;
      WrittenHolds(c, lanes[1..], entries[1..], start + 1, headers);
    }
  }

  /**
    A request whose headers hold the serialized entries under their lanes
    and the indices from `start` on gives back exactly those entries when
    fetched lane by lane in the same order.
   */
  lemma {:induction false} FetchAllReads(c: Codec, h: HttpContext, lanes: seq<int>, entries: seq<Option<ContextEntry>>, start: nat)
    requires EntriesRoundTrip(c)
    requires |lanes| == |entries|
    requires CounterAt(h, start)
    requires start + |lanes| <= MaxInt32
    requires HeadersHold(c, h.requestHeaders, lanes, entries, start)
    ensures FetchAll(c, h, lanes) == Ok(entries)
    decreases |lanes|
  {
    if |lanes| > 0 {
      FetchFirst(c, h, lanes[0], entries[0], start);
      var s := GetNextEntry(c, h, lanes[0]);
      FetchAllReads(c, s.state, lanes[1..], entries[1..], start + 1);
      assert [entries[0]] + entries[1..] == entries;
    }
  }

  /** One fetch at counter `start` reads back the entry serialized under that index. */
  lemma FetchFirst(c: Codec, h: HttpContext, lane: int, e: Option<ContextEntry>, start: nat)
    requires EntriesRoundTrip(c)
    requires CounterAt(h, start) && start < MaxInt32
    requires GetEntryContentKey(lane, start) in h.requestHeaders
    requires h.requestHeaders[GetEntryContentKey(lane, start)] == [SerializeEntry(c, e)]
    ensures GetNextEntry(c, h, lane).outcome == Ok(e)
    ensures GetNextEntry(c, h, lane).state.requestHeaders == h.requestHeaders
    ensures CounterAt(GetNextEntry(c, h, lane).state, start + 1)
  {
    assert GetNextEntryIndex(h).1 == start;
    if e.Some? {
      assert c.decodeEntry(c.encodeEntry(e.value)) == Ok(e);
    }
  }

  /**
    Record/replay over HTTP: a recording request's response headers, sent
    back as the request headers of a replay request, give back every entry
    in order when the replay fetches on the same lanes in the same order.
   */
  lemma HeadersRecordedReplay(c: Codec, recording: HttpContext, lanes: seq<int>, entries: seq<Option<ContextEntry>>, replaying: HttpContext)
    requires EntriesRoundTrip(c)
    requires |lanes| == |entries| && |lanes| <= MaxInt32
    requires forall k :: 0 <= k < |lanes| ==> lanes[k] >= 0
    requires recording.entryIndex.None? && replaying.entryIndex.None?
    requires var written := InsertAll(c, recording, lanes, entries).responseHeaders;
             forall key :: key in written ==> key in replaying.requestHeaders && replaying.requestHeaders[key] == written[key]
    ensures FetchAll(c, replaying, lanes) == Ok(entries)
  {
    InsertAllWrites(c, recording, lanes, entries, 0);
    WrittenHolds(c, lanes, entries, 0, replaying.requestHeaders);
    FetchAllReads(c, replaying, lanes, entries, 0);
  }
}

=== FILE: interceptor_configuration.dfy ===
/**
  `InterceptorConfiguration`: the container hook that decides which
  registered components get the record and replay interceptors. Without a
  type list every component with a service does; with one, a component does
  when one of its services is in the list.
 */
module InterceptorConfiguration {
  import opened Values

  /** The intercepted type names; `None` for the parameterless constructor. */
  datatype Configuration = Configuration(interceptingTypes: Option<set<TypeName>>)

  /** An entry of a component's interceptor list. */
  datatype InterceptorReference = RecordInterceptor | ReplayInterceptor | OtherInterceptor(name: string)

  /** The parts of a `ComponentModel` the hook reads and writes. */
  datatype ComponentModel = ComponentModel(services: seq<TypeName>, interceptors: seq<InterceptorReference>)

  const ArgumentException: Exception := Exception("System.ArgumentException", "")

  /** `new InterceptorConfiguration()`: intercept everything. */
  const Default: Configuration := Configuration(None)

  /**
    `new InterceptorConfiguration(types)`: the names go into a dictionary,
    which throws on a name given twice.
   */
  function FromTypes(types: seq<TypeName>): (r: Result<Configuration>)
    ensures r.Ok? <==> forall i, j :: 0 <= i < j < |types| ==> types[i] != types[j]
    ensures r.Ok? ==> r.value.interceptingTypes.Some? && forall t :: t in r.value.interceptingTypes.value <==> t in types
    ensures r.Err? ==> r.error == ArgumentException
    decreases |types|
  {
    if |types| == 0 then Ok(Configuration(Some({})))
    else
      match FromTypes(types[..|types| - 1])
      case Err(e) => Err(e)
      case Ok(cfg) =>
        var last := types[|types| - 1];
        if last in cfg.interceptingTypes.value then Err(ArgumentException)
        else
          assert forall i :: 0 <= i < |types| - 1 ==> types[..|types| - 1][i] == types[i];
          assert types == types[..|types| - 1] + [last];
          Ok(Configuration(Some(cfg.interceptingTypes.value + {last})))
  }

  /** Whether a service type is to be intercepted. */
  predicate Intercepts(cfg: Configuration, service: TypeName)
  {
    cfg.interceptingTypes.None? || service in cfg.interceptingTypes.value
  }

  /**
    `ProcessModel`: at the first service that is to be intercepted, the
    record interceptor and then the replay interceptor are appended and the
    scan stops; with no such service the model is left as it was.
   */
  method ProcessModel(cfg: Configuration, model: ComponentModel) returns (r: ComponentModel)
    ensures r.services == model.services
    ensures (exists i :: 0 <= i < |model.services| && Intercepts(cfg, model.services[i])) ==>
              r.interceptors == model.interceptors + [RecordInterceptor, ReplayInterceptor]
    ensures (forall i :: 0 <= i < |model.services| ==> !Intercepts(cfg, model.services[i])) ==> r == model
  {
    var k := 0;
    while k < |model.services|
      invariant 0 <= k <= |model.services|
      invariant forall i :: 0 <= i < k ==> !Intercepts(cfg, model.services[i])
    {
      var matches := if cfg.interceptingTypes.None? then true else model.services[k] in cfg.interceptingTypes.value;
      if matches {
        assert Intercepts(cfg, model.services[k]);
        r := model.(interceptors := model.interceptors + [RecordInterceptor, ReplayInterceptor]);
        return;
      }
      k := k + 1;
    }
    r := model;
  }

  /** The parameterless configuration intercepts a component exactly when it has a service. */
  lemma DefaultInterceptsAny(model: ComponentModel)
    ensures (exists i :: 0 <= i < |model.services| && Intercepts(Default, model.services[i])) <==> |model.services| > 0
  {
    if |model.services| > 0 {
      assert Intercepts(Default, model.services[0]);
    }
  }

  /** A configuration built from a type list intercepts a service exactly when its name is in the list. */
  lemma FromTypesIntercepts(types: seq<TypeName>, service: TypeName)
    requires FromTypes(types).Ok?
    ensures Intercepts(FromTypes(types).value, service) <==> service in types
  {
  }
}

=== FILE: invocation.dfy ===
/**
  An intercepted call as an interceptor sees it: the target type and method
  name, the argument array, and the return-value slot. The proxied
  implementation is a function from arguments to a completion, and
  `Proceed` runs it. Interception results carry a trace of the effects the
  interceptor performed, in order, so call counts and ordering can be stated.
 */
module Invocations {
  import opened Values
  import opened ContextEntries
  import opened LaneRegistry

  datatype Invocation = Invocation(
    targetType: TypeName,
    methodName: string,
    arguments: seq<Value>,
    returnValue: Value)

  /** How the implementation finished: by returning a value or by throwing. */
  datatype Completion = Returned(value: Value) | Threw(error: Exception)

  /** The real implementation behind the proxy. */
  type Target = seq<Value> -> Completion

  /** `invocation.Proceed()`: runs the implementation on the current arguments and stores what it returns. */
  function Proceed(inv: Invocation, target: Target): (r: Result<Invocation>)
    ensures r.Ok? <==> target(inv.arguments).Returned?
    ensures r.Ok? ==> r.value == inv.(returnValue := target(inv.arguments).value)
    ensures r.Err? ==> r.error == target(inv.arguments).error
  {
    match target(inv.arguments)
    case Returned(v) => Ok(inv.(returnValue := v))
    case Threw(e) => Err(e)
  }

  /** What an interceptor did, in order. */
  datatype Effect =
    | Fetched(lane: int)
    | Inserted(lane: int, entry: Option<ContextEntry>)
    | Proceeded(arguments: seq<Value>)

  /** How `Intercept` itself ended for the caller of the proxy. */
  datatype Outcome = Completed | Raised(error: Exception)

  /** The state after one `Intercept` on a store of type `S`. */
  datatype Interception<S> = Interception(
    store: S,
    registry: Registry,
    invocation: Invocation,
    outcome: Outcome,
    trace: seq<Effect>)

  /** Proceeding untouched: no lane is taken and an exception of the implementation reaches the caller. */
  function Passthrough<S>(store: S, reg: Registry, inv: Invocation, target: Target): (r: Interception<S>)
    ensures r.store == store && r.registry == reg && r.invocation.arguments == inv.arguments
    ensures r.trace == [Proceeded(inv.arguments)]
    ensures target(inv.arguments).Returned? ==> r.outcome == Completed && r.invocation.returnValue == target(inv.arguments).value
    ensures target(inv.arguments).Threw? ==> r.outcome == Raised(target(inv.arguments).error) && r.invocation == inv
  {
    match Proceed(inv, target)
    case Ok(inv1) => Interception(store, reg, inv1, Completed, [Proceeded(inv.arguments)])
    case Err(e) => Interception(store, reg, inv, Raised(e), [Proceeded(inv.arguments)])
  }

  /** The implementation ran at most once. */
  predicate ProceedsAtMostOnce(trace: seq<Effect>)
  {
    forall i, j :: 0 <= i < j < |trace| && trace[i].Proceeded? ==> !trace[j].Proceeded?
  }
}

=== FILE: lane_registry.dfy ===
/**
  The thread-to-lane map each interceptor keeps. A lane is the index under
  which a thread's entries are stored: the first thread an interceptor sees
  gets lane 0, the next new thread lane 1, and so on. Each interceptor has
  its own map, so recording and replay agree on lanes exactly when threads
  first reach them in the same order.
 */
module LaneRegistry {

  /** Managed thread id to lane. */
  type Registry = map<int, int>

  const Empty: Registry := map[]

  /** Lanes are 0 .. n-1 for n known threads, one lane per thread. */
  ghost predicate Valid(reg: Registry)
  {
    && (forall t :: t in reg ==> 0 <= reg[t] < |reg|)
    && (forall t, u :: t in reg && u in reg && reg[t] == reg[u] ==> t == u)
  }

  /**
    `GetThreadIndex`: the lane of a known thread; a new thread is given the
    number of threads seen so far.
   */
  function GetThreadIndex(reg: Registry, thread: int): (r: (Registry, int))
    ensures thread in reg ==> r == (reg, reg[thread])
    ensures thread !in reg ==> r.1 == |reg| && r.0 == reg[thread := r.1]
    ensures thread in r.0 && r.0[thread] == r.1
  {
    if thread in reg then (reg, reg[thread]) else (reg[thread := |reg|], |reg|)
  }

  /**
    Lanes stay a numbering of the threads seen: a new thread gets a lane no
    other thread holds, and no thread's lane ever changes.
   */
  lemma GetThreadIndexKeepsValid(reg: Registry, thread: int)
    requires Valid(reg)
    ensures var (reg1, lane) := GetThreadIndex(reg, thread);
            && Valid(reg1)
            && 0 <= lane < |reg1|
            && (forall t :: t in reg ==> t in reg1 && reg1[t] == reg[t])
            && (thread !in reg ==> forall t :: t in reg ==> reg[t] != lane)
  {
    if thread !in reg {
      var reg1 := reg[thread := |reg|];
      assert reg1.Keys == reg.Keys + {thread};
      assert |reg1| == |reg| + 1;
    }
  }

  /** The lanes handed out to a run of calls from the given threads, in call order. */
  function LanesFor(reg: Registry, threads: seq<int>): (r: (Registry, seq<int>))
    ensures |r.1| == |threads|
    decreases |threads|
  {
    if |threads| == 0 then (reg, [])
    else
      var (reg1, lane) := GetThreadIndex(reg, threads[0]);
      var (reg2, lanes) := LanesFor(reg1, threads[1..]);
      (reg2, [lane] + lanes)
  }

  /**
    Over any run of calls, every call gets the lane its thread holds at the
    end, and lanes already given out never change.
   */
  lemma {:induction false} LanesForStable(reg: Registry, threads: seq<int>)
    requires Valid(reg)
    ensures var (reg1, lanes) := LanesFor(reg, threads);
            && Valid(reg1)
            && (forall t :: t in reg ==> t in reg1 && reg1[t] == reg[t])
            && (forall i :: 0 <= i < |threads| ==> threads[i] in reg1 && lanes[i] == reg1[threads[i]])
    decreases |threads|
  {
    if |threads| > 0 {
      var (reg1, lane) := GetThreadIndex(reg, threads[0]);
      GetThreadIndexKeepsValid(reg, threads[0]);
      LanesForStable(reg1, threads[1..]);
      var (reg2, lanes) := LanesFor(reg1, threads[1..]);
      forall i | 1 <= i < |threads| ensures threads[i] in reg2 && LanesFor(reg, threads).1[i] == reg2[threads[i]] {
        assert threads[1..][i - 1] == threads[i];
      }
    }
  }

  /** Two calls share a lane exactly when they come from the same thread. */
  lemma SameLaneSameThread(reg: Registry, threads: seq<int>, i: int, j: int)
    requires Valid(reg)
    requires 0 <= i < |threads| && 0 <= j < |threads|
    ensures LanesFor(reg, threads).1[i] == LanesFor(reg, threads).1[j] <==> threads[i] == threads[j]
  {
    LanesForStable(reg, threads);
  }
}

=== FILE: line_format.dfy ===
/**
  The line format in which the in-memory store dumps and loads its cache and
  in which the file store logs entries: each entry is two lines, the lane
  number and then the serialized entry ("" for a null entry).
  A stream is modelled as its sequence of lines.
 */
module LineFormat {
  import opened Values
  import opened Decimal
  import opened ContextEntries
  import opened Serializer
  import opened EntryCache

  /**
    The load loop over the lines still to read, adding to `acc`. It stops at
    an empty or non-integer lane line, or at the end of the stream; a
    missing content line reads as null, which is treated like "" and
    enqueues a null entry. A deserialization failure aborts the load.
   */
  function LoadFrom(c: Codec, lines: seq<string>, acc: Cache): (r: Result<Cache>)
    ensures Valid(acc) && r.Ok? ==> Valid(r.value)
    decreases |lines|
  {
    if |lines| == 0 || lines[0] == "" then Ok(acc)
    else
      match ParseInt(lines[0])
      case None => Ok(acc)
      case Some(lane) =>
        var content := if |lines| > 1 then lines[1] else "";
        var rest := if |lines| > 1 then lines[2..] else [];
        if content == "" then LoadFrom(c, rest, Enqueue(acc, lane, None))
        else
          match c.decodeEntry(content)
          case Err(e) => Err(e)
          case Ok(entry) => LoadFrom(c, rest, Enqueue(acc, lane, entry))
  }

  /** Reading a whole stream into a fresh cache. */
  function Load(c: Codec, lines: seq<string>): (r: Result<Cache>)
    ensures r.Ok? ==> Valid(r.value)
  {
    LoadFrom(c, lines, Empty)
  }

  /** The two lines that record one insertion, for each insertion in turn. */
  function PairLines(c: Codec, ops: seq<Insertion>): (lines: seq<string>)
    ensures |lines| == 2 * |ops|
    decreases |ops|
  {
    if |ops| == 0 then []
    else [FormatInt(ops[0].lane), SerializeEntry(c, ops[0].entry)] + PairLines(c, ops[1..])
  }

  /** A line at which loading stops. */
  predicate StopsLoad(tail: seq<string>)
  {
    |tail| == 0 || tail[0] == "" || ParseInt(tail[0]).None?
  }

  /** A queue's entries, each labelled with its lane. */
  function Tagged(lane: int, q: Queue): (r: seq<Insertion>)
    ensures |r| == |q|
    ensures forall i :: 0 <= i < |r| ==> r[i].lane == lane
    decreases |q|
  {
    if |q| == 0 then [] else [Insertion(lane, q[0])] + Tagged(lane, q[1..])
  }

  /** The order in which a dump drains the cache: lane by lane in enumeration order, each queue oldest first. */
  function DrainOrder(queues: map<int, Queue>, lanes: seq<int>): (r: seq<Insertion>)
    ensures forall i :: 0 <= i < |r| ==> r[i].lane in lanes
    decreases |lanes|
  {
    if |lanes| == 0 then []
    else
      var q := if lanes[0] in queues then queues[lanes[0]] else [];
      Tagged(lanes[0], q) + DrainOrder(queues, lanes[1..])
  }

  /**
    `SaveContextEntry`: the lines written, and the cache left behind with
    every queue drained.
   */
  function Save(c: Codec, cache: Cache): (r: (seq<string>, Cache))
    ensures r.1.lanes == cache.lanes && r.1.queues.Keys == cache.queues.Keys
    ensures forall lane :: QueueOf(r.1, lane) == []
  {
    (PairLines(c, DrainOrder(cache.queues, cache.lanes)), Cache(map l | l in cache.queues :: [], cache.lanes))
  }

  /** Loading the two lines of one insertion performs that insertion and reads on. */
  lemma LoadOnePair(c: Codec, op: Insertion, rest: seq<string>, acc: Cache)
    requires EntriesRoundTrip(c)
    requires IsInt32(op.lane)
    ensures LoadFrom(c, [FormatInt(op.lane), SerializeEntry(c, op.entry)] + rest, acc)
         == LoadFrom(c, rest, Enqueue(acc, op.lane, op.entry))
  {
    var lines := [FormatInt(op.lane), SerializeEntry(c, op.entry)] + rest;
    ParseFormat(op.lane);
    assert lines[0] == FormatInt(op.lane) && lines[1] == SerializeEntry(c, op.entry);
    assert lines[2..] == rest;
    if op.entry.Some? {
      assert c.decodeEntry(c.encodeEntry(op.entry.value)) == Ok(Some(op.entry.value));
    }
  }

  /**
    Loading the lines of a run of insertions, followed by any line at which
    loading stops, replays exactly those insertions, null entries included.
   */
  lemma {:induction false} LoadPairLines(c: Codec, ops: seq<Insertion>, acc: Cache, tail: seq<string>)
    requires EntriesRoundTrip(c)
    requires forall i :: 0 <= i < |ops| ==> IsInt32(ops[i].lane)
    requires StopsLoad(tail)
    ensures LoadFrom(c, PairLines(c, ops) + tail, acc) == Ok(EnqueueAll(acc, ops))
    decreases |ops|
  {
    if |ops| > 0 {
      var op := ops[0];
      var rest := PairLines(c, ops[1..]) + tail;
      assert PairLines(c, ops) + tail == [FormatInt(op.lane), SerializeEntry(c, op.entry)] + rest;
      LoadOnePair(c, op, rest, acc);
      LoadPairLines(c, ops[1..], Enqueue(acc, op.lane, op.entry), tail);
    } else {
      assert PairLines(c, ops) + tail == tail;
    }
  }

  lemma {:induction false} OnLaneTagged(k: int, q: Queue, lane: int)
    ensures OnLane(Tagged(k, q), lane) == if k == lane then q else []
    decreases |q|
  {
    if |q| > 0 {
      OnLaneTagged(k, q[1..], lane);
      assert Tagged(k, q)[1..] == Tagged(k, q[1..]);
    }
  }

  lemma {:induction false} OnLaneDrainOrder(queues: map<int, Queue>, lanes: seq<int>, lane: int)
    requires forall i, j :: 0 <= i < j < |lanes| ==> lanes[i] != lanes[j]
    ensures OnLane(DrainOrder(queues, lanes), lane) == if lane in lanes && lane in queues then queues[lane] else []
    decreases |lanes|
  {
    if |lanes| > 0 {
      var q := if lanes[0] in queues then queues[lanes[0]] else [];
      OnLaneAppend(Tagged(lanes[0], q), DrainOrder(queues, lanes[1..]), lane);
      OnLaneTagged(lanes[0], q, lane);
      OnLaneDrainOrder(queues, lanes[1..], lane);
      if lane == lanes[0] {
        assert lane !in lanes[1..] by {
          forall i | 0 <= i < |lanes[1..]| ensures lanes[1..][i] != lane {
            assert lanes[1..][i] == lanes[i + 1];
          }
        }
      } else {
        assert lane in lanes <==> lane in lanes[1..] by {
          if lane in lanes {
            var i :| 0 <= i < |lanes| && lanes[i] == lane;
            assert lanes[1..][i - 1] == lane;
          }
        }
      }
    }
  }

  /**
    Dump then load restores every lane's queue, whatever the enumeration
    order, provided the codec round-trips entries and the lanes are 32-bit.
   */
  lemma SaveLoadRoundTrip(c: Codec, cache: Cache)
    requires EntriesRoundTrip(c)
    requires Valid(cache)
    requires forall i :: 0 <= i < |cache.lanes| ==> IsInt32(cache.lanes[i])
    ensures Load(c, Save(c, cache).0).Ok?
    ensures forall lane :: QueueOf(Load(c, Save(c, cache).0).value, lane) == QueueOf(cache, lane)
  {
    var ops := DrainOrder(cache.queues, cache.lanes);
    forall i | 0 <= i < |ops| ensures IsInt32(ops[i].lane) {
      var k :| 0 <= k < |cache.lanes| && cache.lanes[k] == ops[i].lane;
    }
    LoadPairLines(c, ops, Empty, []);
    assert PairLines(c, ops) + [] == Save(c, cache).0;
    forall lane ensures QueueOf(Load(c, Save(c, cache).0).value, lane) == QueueOf(cache, lane) {
      EnqueueAllQueues(Empty, ops, lane);
      OnLaneDrainOrder(cache.queues, cache.lanes, lane);
    }
  }
}

=== FILE: mem_context_provider.dfy ===
/**
  The in-memory store: recording and replay sessions opened and closed
  explicitly, one cache of per-lane queues, and a dump/load of that cache in
  the line format. Recording and replay share the one cache field.
 */
module MemContextProvider {
  import opened Values
  import opened Decimal
  import opened ContextEntries
  import opened Serializer
  import opened EntryCache
  import opened LineFormat

  /** Both ids start out null; `None` stands for a null string or a null cache. */
  datatype MemContext = MemContext(recordID: Option<string>, replayID: Option<string>, cache: Option<Cache>)

  const Initial: MemContext := MemContext(None, None, None)

  ghost predicate Valid(m: MemContext)
  {
    m.cache.Some? ==> EntryCache.Valid(m.cache.value)
  }

  /** What closing a session did: refused for a foreign id, or closed (with the lines dumped, for a recording). */
  datatype Stop = Refused | Stopped(written: seq<string>)

  /** Opens a recording unless one is already open; a fresh cache replaces the shared one. */
  function StartRecording(m: MemContext, recordID: string): (r: (MemContext, bool))
    ensures r.1 <==> IsNullOrEmpty(m.recordID)
    ensures !r.1 ==> r.0 == m
    ensures r.1 ==> r.0.recordID == Some(recordID) && r.0.replayID == m.replayID
    ensures r.1 ==> r.0.cache == Some(EntryCache.Empty)
  {
    if !IsNullOrEmpty(m.recordID) then (m, false)
    else (m.(recordID := Some(recordID), cache := Some(EntryCache.Empty)), true)
  }

  /**
    Closes the recording named `recordID`: dumps the shared cache, then
    clears the id to "" and the cache to null. When the cache is already null
    (a replay was stopped meanwhile, or the recording was already stopped
    and "" is passed), the dump dereferences null and throws.
   */
  function StopRecording(c: Codec, m: MemContext, recordID: string): (r: Step<MemContext, Stop>)
    ensures m.recordID != Some(recordID) ==> r == Step(m, Ok(Refused))
    ensures m.recordID == Some(recordID) && m.cache.None? ==> r == Step(m, Err(NullReferenceException))
    ensures m.recordID == Some(recordID) && m.cache.Some? ==>
      && r.outcome.Ok? && r.outcome.value == Stopped(Save(c, m.cache.value).0)
      && r.state == m.(recordID := Some(""), cache := None)
  {
    if m.recordID != Some(recordID) then Step(m, Ok(Refused))
    else if m.cache.None? then Step(m, Err(NullReferenceException))
    else
      var (lines, _) := Save(c, m.cache.value);
      Step(m.(recordID := Some(""), cache := None), Ok(Stopped(lines)))
  }

  function GetRecordID(m: MemContext): Option<string>
  {
    m.recordID
  }

  /**
    Opens a replay unless one is already open, loading the cache from the
    given lines. The id is set before the load, so a load that throws still
    leaves the replay id set and the cache as it was.
   */
  function StartReplaying(c: Codec, m: MemContext, replayID: string, lines: seq<string>): (r: Step<MemContext, bool>)
    ensures !IsNullOrEmpty(m.replayID) ==> r == Step(m, Ok(false))
    ensures IsNullOrEmpty(m.replayID) ==> r.state.replayID == Some(replayID) && r.state.recordID == m.recordID
    ensures IsNullOrEmpty(m.replayID) && Load(c, lines).Err? ==> r.state.cache == m.cache && r.outcome == Err(Load(c, lines).error)
    ensures IsNullOrEmpty(m.replayID) && Load(c, lines).Ok? ==> r.state.cache == Some(Load(c, lines).value) && r.outcome == Ok(true)
  {
    if !IsNullOrEmpty(m.replayID) then Step(m, Ok(false))
    else
      var m1 := m.(replayID := Some(replayID));
      match Load(c, lines)
      case Err(e) => Step(m1, Err(e))
      case Ok(cache) => Step(m1.(cache := Some(cache)), Ok(true))
  }

  /** Closes the replay named `replayID`, clearing the id to "" and nulling the shared cache. */
  function StopReplaying(m: MemContext, replayID: string): (r: (MemContext, bool))
    ensures r.1 <==> m.replayID == Some(replayID)
    ensures !r.1 ==> r.0 == m
    ensures r.1 ==> r.0 == m.(replayID := Some(""), cache := None)
  {
    if m.replayID != Some(replayID) then (m, false)
    else (m.(replayID := Some(""), cache := None), true)
  }

  function GetReplayID(m: MemContext): Option<string>
  {
    m.replayID
  }

  /** Appends to the lane's queue; dropped when there is no cache. The session id is ignored. */
  function InsertEntry(m: MemContext, lane: int, e: Option<ContextEntry>): (r: MemContext)
    ensures r.recordID == m.recordID && r.replayID == m.replayID
    ensures m.cache.None? ==> r == m
    ensures m.cache.Some? ==>
      && r.cache.Some?
      && QueueOf(r.cache.value, lane) == QueueOf(m.cache.value, lane) + [e]
      && forall l :: l != lane ==> QueueOf(r.cache.value, l) == QueueOf(m.cache.value, l)
    ensures Valid(m) ==> Valid(r)
  {
    if m.cache.None? then m else m.(cache := Some(Enqueue(m.cache.value, lane, e)))
  }

  /** Takes the head of the lane's queue; null without a cache, for an unknown lane, or for an empty queue. */
  function GetNextEntry(m: MemContext, lane: int): (r: (MemContext, Option<ContextEntry>))
    ensures r.0.recordID == m.recordID && r.0.replayID == m.replayID
    ensures m.cache.None? ==> r == (m, None)
    ensures m.cache.Some? && QueueOf(m.cache.value, lane) == [] ==> r == (m, None)
    ensures m.cache.Some? && QueueOf(m.cache.value, lane) != [] ==>
      && r.0.cache.Some?
      && r.1 == QueueOf(m.cache.value, lane)[0]
      && QueueOf(r.0.cache.value, lane) == QueueOf(m.cache.value, lane)[1..]
      && forall l :: l != lane ==> QueueOf(r.0.cache.value, l) == QueueOf(m.cache.value, l)
    ensures Valid(m) ==> Valid(r.0)
  {
    if m.cache.None? then (m, None)
    else
      var (cache, e) := Dequeue(m.cache.value, lane);
      (m.(cache := Some(cache)), e)
  }

  /** Inserts each entry in turn. */
  function InsertAll(m: MemContext, ops: seq<Insertion>): (r: MemContext)
    decreases |ops|
  {
    if |ops| == 0 then m else InsertAll(InsertEntry(m, ops[0].lane, ops[0].entry), ops[1..])
  }

  lemma {:induction false} InsertAllIsEnqueueAll(m: MemContext, ops: seq<Insertion>)
    requires m.cache.Some?
    ensures InsertAll(m, ops) == m.(cache := Some(EnqueueAll(m.cache.value, ops)))
    decreases |ops|
  {
    if |ops| > 0 {
      InsertAllIsEnqueueAll(InsertEntry(m, ops[0].lane, ops[0].entry), ops[1..]);
    }
  }

  /** Lanes written by 32-bit lane numbers, as a cache must have for its dump to load back. */
  lemma {:induction false} EnqueueAllLanesInt32(ops: seq<Insertion>)
    requires forall i :: 0 <= i < |ops| ==> IsInt32(ops[i].lane)
    ensures var cache := EnqueueAll(EntryCache.Empty, ops);
            forall k :: 0 <= k < |cache.lanes| ==> IsInt32(cache.lanes[k])
  {
    var cache := EnqueueAll(EntryCache.Empty, ops);
    forall k | 0 <= k < |cache.lanes| ensures IsInt32(cache.lanes[k]) {
      assert cache.lanes[k] in LanesOf(ops);
      var i :| 0 <= i < |ops| && ops[i].lane == cache.lanes[k];
    }
  }

  /** A recording session dumps, at its stop, the lines of everything inserted meanwhile. */
  lemma RecordingSessionDumps(c: Codec, id: string, ops: seq<Insertion>)
    ensures StartRecording(Initial, id).1
    ensures StopRecording(c, InsertAll(StartRecording(Initial, id).0, ops), id).outcome
            == Ok(Stopped(Save(c, EnqueueAll(EntryCache.Empty, ops)).0))
  {
    var m1 := StartRecording(Initial, id).0;
    InsertAllIsEnqueueAll(m1, ops);
  }

  /**
    A whole session: start recording, insert, stop and dump, then start a
    replay on a fresh store from the dump. Every lane's queue then holds
    exactly what was inserted on that lane, in insertion order.
   */
  lemma RecordingDumpReplays(c: Codec, id: string, ops: seq<Insertion>, replayID: string)
    requires EntriesRoundTrip(c)
    requires forall i :: 0 <= i < |ops| ==> IsInt32(ops[i].lane)
    ensures var dump := Save(c, EnqueueAll(EntryCache.Empty, ops)).0;
            && StopRecording(c, InsertAll(StartRecording(Initial, id).0, ops), id).outcome == Ok(Stopped(dump))
            && StartReplaying(c, Initial, replayID, dump).outcome == Ok(true)
            && forall lane :: QueueOf(StartReplaying(c, Initial, replayID, dump).state.cache.value, lane) == OnLane(ops, lane)
  {
    RecordingSessionDumps(c, id, ops);
    var cache := EnqueueAll(EntryCache.Empty, ops);
    EnqueueAllLanesInt32(ops);
    SaveLoadRoundTrip(c, cache);
    var dump := Save(c, cache).0;
    var loaded := Load(c, dump).value;
    assert StartReplaying(c, Initial, replayID, dump).state.cache == Some(loaded);
    forall lane ensures QueueOf(loaded, lane) == OnLane(ops, lane) {
      EnqueueAllQueues(EntryCache.Empty, ops, lane);
    }
  }

  /**
    Recording and replay share one cache: opening a replay in the middle of
    a recording replaces the recorded entries with the loaded ones, so the
    recording's dump writes the loaded entries instead.
   */
  lemma ReplayStartReplacesRecording(c: Codec, m: MemContext, replayID: string, lines: seq<string>)
    requires m.recordID.Some? && m.recordID.value != "" && m.cache.Some?
    requires IsNullOrEmpty(m.replayID)
    requires Load(c, lines).Ok?
    ensures var r := StartReplaying(c, m, replayID, lines);
            && r.state.cache == Some(Load(c, lines).value)
            && StopRecording(c, r.state, m.recordID.value).outcome
               == Ok(Stopped(Save(c, Load(c, lines).value).0))
  {
  }

  /**
    Stopping a replay in the middle of a recording nulls the shared cache:
    later insertions are dropped and stopping the recording throws.
   */
  lemma ReplayStopBreaksRecording(c: Codec, m: MemContext, replayID: string, lane: int, e: ContextEntry)
    requires m.recordID.Some? && m.recordID.value != ""
    requires m.replayID == Some(replayID)
    ensures var (m1, stopped) := StopReplaying(m, replayID);
            && stopped
            && InsertEntry(m1, lane, Some(e)) == m1
            && StopRecording(c, m1, m.recordID.value) == Step(m1, Err(NullReferenceException))
  {
  }
}

=== FILE: record_interceptor.dfy ===
/**
  `RecordInterceptor`: while a recording session is open, each intercepted
  call appends two entries to its thread's lane, an entry record with the
  serialized arguments before the implementation runs and an exit record
  with the serialized return value or exception after it. An exception of
  the implementation is recorded and then swallowed: the caller sees a
  normal return.
 */
module RecordInterceptor {
  import opened Values
  import opened ContextEntries
  import opened Serializer
  import opened LaneRegistry
  import opened Invocations
  import opened ContextStore

  /** Serializes the arguments in order; the first one that fails aborts with its exception. */
  function SerializeAll(c: Codec, args: seq<Value>): (r: Result<seq<string>>)
    ensures r.Ok? <==> forall i :: 0 <= i < |args| ==> Serialize(c, args[i]).Ok?
    ensures r.Ok? ==> |r.value| == |args| && forall i :: 0 <= i < |args| ==> Serialize(c, args[i]) == Ok(r.value[i])
    ensures r.Err? ==> exists k :: 0 <= k < |args| && Serialize(c, args[k]) == Err(r.error)
                                && forall i :: 0 <= i < k ==> Serialize(c, args[i]).Ok?
    decreases |args|
  {
    if |args| == 0 then Ok([])
    else
      match Serialize(c, args[0])
      case Err(e) => Err(e)
      case Ok(t) =>
        match SerializeAll(c, args[1..])
        case Err(e) =>
          assert exists k :: 0 <= k < |args[1..]| && Serialize(c, args[1..][k]) == Err(e)
                          && forall i :: 0 <= i < k ==> Serialize(c, args[1..][i]).Ok?;
          var k :| 0 <= k < |args[1..]| && Serialize(c, args[1..][k]) == Err(e)
                 && forall i :: 0 <= i < k ==> Serialize(c, args[1..][i]).Ok?;
          assert Serialize(c, args[k + 1]) == Err(e);
          assert forall i :: 0 <= i < k + 1 ==> Serialize(c, args[i]).Ok? by {
            forall i | 0 <= i < k + 1 ensures Serialize(c, args[i]).Ok? {
              if i > 0 { assert args[i] == args[1..][i - 1]; }
            }
          }
          Err(e)
        case Ok(ts) => Ok([t] + ts)
  }

  /** The record written before the call: class, method and arguments, no outcome. */
  function EntryRecord(inv: Invocation, parameters: seq<string>): (e: ContextEntry)
    ensures IsEntryRecord(e) && !IsExitRecord(e)
  {
    ContextEntry(inv.targetType, inv.methodName, Some(parameters), "", "")
  }

  /** The exit record of a call that threw `e`: the serialized exception and its type name. */
  function FaultRecord(c: Codec, inv: Invocation, e: Exception): (r: Result<ContextEntry>)
    ensures r.Ok? <==> c.encode(AsObject(e)).Ok?
    ensures r.Ok? ==> r.value == ContextEntry(inv.targetType, inv.methodName, None, c.encode(AsObject(e)).value, e.typeName)
    ensures r.Err? ==> r.error == c.encode(AsObject(e)).error
  {
    match Serialize(c, AsObject(e))
    case Ok(text) => Ok(ContextEntry(inv.targetType, inv.methodName, None, text, e.typeName))
    case Err(x) => Err(x)
  }

  /**
    The try/catch around `Proceed`: the invocation after the call, and the
    exit record, or the exception that escaped the catch block because the
    caught exception could not itself be serialized.
   */
  function RunAndRecord(c: Codec, inv: Invocation, target: Target): (r: (Invocation, Result<ContextEntry>))
    ensures r.0.arguments == inv.arguments && r.0.targetType == inv.targetType && r.0.methodName == inv.methodName
    ensures r.1.Ok? ==> IsExitRecord(r.1.value) && r.1.value.className == inv.targetType && r.1.value.methodName == inv.methodName
    ensures target(inv.arguments).Threw? ==> r == (inv, FaultRecord(c, inv, target(inv.arguments).error))
    ensures target(inv.arguments).Returned? ==> r.0 == inv.(returnValue := target(inv.arguments).value)
    ensures target(inv.arguments).Returned? && Serialize(c, target(inv.arguments).value).Ok? ==>
              r.1 == Ok(ContextEntry(inv.targetType, inv.methodName, None, Serialize(c, target(inv.arguments).value).value, ""))
    ensures target(inv.arguments).Returned? && Serialize(c, target(inv.arguments).value).Err? ==>
              r.1 == FaultRecord(c, inv, Serialize(c, target(inv.arguments).value).error)
  {
    match Proceed(inv, target)
    case Err(e) => (inv, FaultRecord(c, inv, e))
    case Ok(inv1) =>
      match Serialize(c, inv1.returnValue)
      case Ok(text) => (inv1, Ok(ContextEntry(inv.targetType, inv.methodName, None, text, "")))
      case Err(e) => (inv1, FaultRecord(c, inv1, e))
  }

  /** `RecordInterceptor.Intercept` on the calling thread `thread`. */
  function Intercept(c: Codec, s: Store, reg: Registry, thread: int, inv: Invocation, target: Target): (r: Interception<Store>)
    ensures r.invocation.arguments == inv.arguments
    ensures ProceedsAtMostOnce(r.trace)
  {
    var (s1, id) := GetRecordID(s);
    if IsNullOrEmpty(id) then Passthrough(s1, reg, inv, target)
    else
      var (reg1, lane) := GetThreadIndex(reg, thread);
      match SerializeAll(c, inv.arguments)
      case Err(e) => Interception(s1, reg1, inv, Raised(e), [])
      case Ok(parameters) =>
        var entry := EntryRecord(inv, parameters);
        var s2 := InsertEntry(c, s1, lane, Some(entry));
        var (inv1, exit) := RunAndRecord(c, inv, target);
        match exit
        case Err(e) => Interception(s2, reg1, inv1, Raised(e), [Inserted(lane, Some(entry)), Proceeded(inv.arguments)])
        case Ok(x) =>
          Interception(InsertEntry(c, s2, lane, Some(x)), reg1, inv1, Completed,
                       [Inserted(lane, Some(entry)), Proceeded(inv.arguments), Inserted(lane, Some(x))])
  }

  /** True when the store has a recording session open. */
  predicate Recording(s: Store)
  {
    !IsNullOrEmpty(GetRecordID(s).1)
  }

  /** With no recording session the call is passed through: no lane, no entry, the implementation's exception reaches the caller. */
  lemma NotRecordingPassesThrough(c: Codec, s: Store, reg: Registry, thread: int, inv: Invocation, target: Target)
    requires !Recording(s)
    ensures var r := Intercept(c, s, reg, thread, inv, target);
            && r.store == GetRecordID(s).0 && r.registry == reg
            && r.trace == [Proceeded(inv.arguments)]
            && (target(inv.arguments).Returned? ==> r.outcome == Completed && r.invocation.returnValue == target(inv.arguments).value)
            && (target(inv.arguments).Threw? ==> r.outcome == Raised(target(inv.arguments).error))
  {
  }

  /**
    While recording, a call whose arguments and outcome serialize writes an
    entry record, runs the implementation once on its own arguments, and
    writes the matching exit record, both on the thread's lane; the caller
    sees a normal return whatever the implementation did.
   */
  lemma RecordingWritesPair(c: Codec, s: Store, reg: Registry, thread: int, inv: Invocation, target: Target)
    requires Recording(s)
    requires forall i :: 0 <= i < |inv.arguments| ==> Serialize(c, inv.arguments[i]).Ok?
    requires RunAndRecord(c, inv, target).1.Ok?
    ensures var r := Intercept(c, s, reg, thread, inv, target);
            var lane := GetThreadIndex(reg, thread).1;
            var parameters := SerializeAll(c, inv.arguments).value;
            var exit := RunAndRecord(c, inv, target).1.value;
            && r.outcome == Completed
            && r.registry == GetThreadIndex(reg, thread).0
            && r.trace == [Inserted(lane, Some(EntryRecord(inv, parameters))), Proceeded(inv.arguments), Inserted(lane, Some(exit))]
            && r.store == InsertEntry(c, InsertEntry(c, GetRecordID(s).0, lane, Some(EntryRecord(inv, parameters))), lane, Some(exit))
            && (forall i :: 0 <= i < |inv.arguments| ==> Serialize(c, inv.arguments[i]) == Ok(parameters[i]))
            && IsExitRecord(exit)
  {
  }

  /**
    While recording, an exception of the implementation is written to the
    exit record, with its type name as the error type, and is not rethrown.
   */
  lemma RecordingSwallowsFault(c: Codec, s: Store, reg: Registry, thread: int, inv: Invocation, target: Target)
    requires Recording(s)
    requires forall i :: 0 <= i < |inv.arguments| ==> Serialize(c, inv.arguments[i]).Ok?
    requires target(inv.arguments).Threw?
    requires c.encode(AsObject(target(inv.arguments).error)).Ok?
    ensures var r := Intercept(c, s, reg, thread, inv, target);
            var e := target(inv.arguments).error;
            && r.outcome == Completed
            && r.invocation == inv
            && |r.trace| == 3
            && r.trace[2] == Inserted(GetThreadIndex(reg, thread).1,
                                      Some(ContextEntry(inv.targetType, inv.methodName, None, c.encode(AsObject(e)).value, e.typeName)))
  {
  }

  /**
    While recording, an argument that cannot be serialized aborts the call
    before anything is written and before the implementation runs.
   */
  lemma UnserializableArgumentAborts(c: Codec, s: Store, reg: Registry, thread: int, inv: Invocation, target: Target, k: int)
    requires Recording(s)
    requires 0 <= k < |inv.arguments| && Serialize(c, inv.arguments[k]).Err?
    ensures var r := Intercept(c, s, reg, thread, inv, target);
            && SerializeAll(c, inv.arguments).Err?
            && r.outcome == Raised(SerializeAll(c, inv.arguments).error)
            && r.registry == GetThreadIndex(reg, thread).0
            && r.trace == []
            && r.store == GetRecordID(s).0
            && r.invocation == inv
  {
  }

  /**
    While recording, an exception that cannot be serialized escapes after
    the implementation ran: the entry record stays without an exit record.
   */
  lemma UnserializableFaultEscapes(c: Codec, s: Store, reg: Registry, thread: int, inv: Invocation, target: Target)
    requires Recording(s)
    requires forall i :: 0 <= i < |inv.arguments| ==> Serialize(c, inv.arguments[i]).Ok?
    requires target(inv.arguments).Threw?
    requires c.encode(AsObject(target(inv.arguments).error)).Err?
    ensures var r := Intercept(c, s, reg, thread, inv, target);
            && r.outcome == Raised(c.encode(AsObject(target(inv.arguments).error)).error)
            && |r.trace| == 2 && r.trace[0].Inserted? && r.trace[1] == Proceeded(inv.arguments)
  {
  }

  /**
    When the codec round-trips values, each recorded parameter deserializes,
    with the runtime type of the argument it came from, back to that
    argument.
   */
  lemma RecordedParametersRestore(c: Codec, inv: Invocation, i: int)
    requires ValuesRoundTrip(c)
    requires SerializeAll(c, inv.arguments).Ok?
    requires 0 <= i < |inv.arguments| && inv.arguments[i].Obj?
    ensures c.decode(SerializeAll(c, inv.arguments).value[i], inv.arguments[i].runtimeType) == Ok(inv.arguments[i])
  {
  }

  /**
    While recording, a return value that cannot be serialized is recorded as
    a fault; when that exception cannot be serialized either, it escapes
    after the implementation ran and the entry record stays without an exit
    record.
   */
  lemma UnserializableReturnEscapes(c: Codec, s: Store, reg: Registry, thread: int, inv: Invocation, target: Target)
    requires Recording(s)
    requires forall i :: 0 <= i < |inv.arguments| ==> Serialize(c, inv.arguments[i]).Ok?
    requires target(inv.arguments).Returned? && Serialize(c, target(inv.arguments).value).Err?
    requires c.encode(AsObject(Serialize(c, target(inv.arguments).value).error)).Err?
    ensures var r := Intercept(c, s, reg, thread, inv, target);
            && r.outcome == Raised(c.encode(AsObject(Serialize(c, target(inv.arguments).value).error)).error)
            && r.invocation == inv.(returnValue := target(inv.arguments).value)
            && |r.trace| == 2 && r.trace[0].Inserted? && r.trace[1] == Proceeded(inv.arguments)
  {
  }
}

=== FILE: record_replay.dfy ===
/**
  Record followed by replay, on the in-memory store. Recording a call
  appends its entry and exit records to the calling thread's lane; a replay
  that finds that pair at the head of its lane restores the recorded
  arguments, then the recorded return value or the recorded exception.
 */
module RecordReplay {
  import opened Values
  import opened ContextEntries
  import opened Serializer
  import opened EntryCache
  import opened LaneRegistry
  import opened Invocations
  import opened ContextStore
  import Mem = MemContextProvider
  import Record = RecordInterceptor
  import Replay = ReplayInterceptor

  /** The entry record that recording `inv` writes. */
  function RecordedEntry(c: Codec, inv: Invocation): ContextEntry
    requires Record.SerializeAll(c, inv.arguments).Ok?
  {
    Record.EntryRecord(inv, Record.SerializeAll(c, inv.arguments).value)
  }

  /** The exit record that recording `inv` against `target` writes. */
  function RecordedExit(c: Codec, inv: Invocation, target: Target): ContextEntry
    requires Record.RunAndRecord(c, inv, target).1.Ok?
  {
    Record.RunAndRecord(c, inv, target).1.value
  }

  /** The calls a recorded call can be replayed into: same class, same method, arguments of the same runtime types. */
  predicate SameShape(recorded: Invocation, inv: Invocation)
  {
    && recorded.targetType == inv.targetType
    && recorded.methodName == inv.methodName
    && |recorded.arguments| == |inv.arguments|
    && forall i :: 0 <= i < |inv.arguments| ==>
         recorded.arguments[i].Obj? && inv.arguments[i].Obj? && inv.arguments[i].runtimeType == recorded.arguments[i].runtimeType
  }

  /**
    Recording on the in-memory store with an open session appends the
    entry record and then the exit record to the caller's lane and leaves
    every other lane alone.
   */
  lemma MemRecordingAppendsPair(c: Codec, m: Mem.MemContext, reg: Registry, thread: int, inv: Invocation, target: Target)
    requires !IsNullOrEmpty(m.recordID) && m.cache.Some?
    requires forall i :: 0 <= i < |inv.arguments| ==> Serialize(c, inv.arguments[i]).Ok?
    requires Record.RunAndRecord(c, inv, target).1.Ok?
    ensures var r := Record.Intercept(c, MemStore(m), reg, thread, inv, target);
            var lane := GetThreadIndex(reg, thread).1;
            && r.outcome == Completed
            && r.store.MemStore? && r.store.mem.cache.Some?
            && QueueOf(r.store.mem.cache.value, lane)
               == QueueOf(m.cache.value, lane) + [Some(RecordedEntry(c, inv)), Some(RecordedExit(c, inv, target))]
            && forall l :: l != lane ==> QueueOf(r.store.mem.cache.value, l) == QueueOf(m.cache.value, l)
  {
    Record.RecordingWritesPair(c, MemStore(m), reg, thread, inv, target);
  }

  /** A recorded entry record, read back for a call of the same shape, restores the recorded arguments. */
  lemma {:induction false} RecordedEntryRestoresArguments(c: Codec, recorded: Invocation, inv: Invocation)
    requires ValuesRoundTrip(c)
    requires SameShape(recorded, inv)
    requires Record.SerializeAll(c, recorded.arguments).Ok?
    ensures Replay.ProcessEntryOverride(c, inv, Some(RecordedEntry(c, recorded))) == Ok(Replay.Accepted(recorded.arguments))
  {
    var parameters := Record.SerializeAll(c, recorded.arguments).value;
    forall i | 0 <= i < |inv.arguments|
      ensures Replay.Decoded(c, inv.arguments[i], parameters[i]) == Ok(recorded.arguments[i])
    {
      Record.RecordedParametersRestore(c, recorded, i);
    }
    var r := Replay.ProcessEntryOverride(c, inv, Some(RecordedEntry(c, recorded)));
    assert r.Ok? && r.value.Accepted?;
    assert r.value.arguments == recorded.arguments;
  }

  /**
    Replaying a recorded call that returned: the implementation runs on the
    recorded arguments, its return value is replaced by the recorded one,
    and the pair is consumed from the lane.
   */
  lemma ReplayRestoresReturn(c: Codec, rt: Runtime, m: Mem.MemContext, reg: Registry, thread: int,
                             inv: Invocation, target: Target, recorded: Invocation, recordedTarget: Target, rest: Queue)
    requires ValuesRoundTrip(c)
    requires !IsNullOrEmpty(m.replayID) && m.cache.Some?
    requires SameShape(recorded, inv)
    requires forall i :: 0 <= i < |recorded.arguments| ==> Serialize(c, recorded.arguments[i]).Ok?
    requires recordedTarget(recorded.arguments).Returned? && recordedTarget(recorded.arguments).value.Obj?
    requires c.encode(recordedTarget(recorded.arguments).value).Ok?
    requires target(recorded.arguments).Returned? && target(recorded.arguments).value.Obj?
    requires target(recorded.arguments).value.runtimeType == recordedTarget(recorded.arguments).value.runtimeType
    requires QueueOf(m.cache.value, GetThreadIndex(reg, thread).1)
             == [Some(RecordedEntry(c, recorded)), Some(RecordedExit(c, recorded, recordedTarget))] + rest
    ensures var r := Replay.Intercept(c, rt, MemStore(m), reg, thread, inv, target);
            var lane := GetThreadIndex(reg, thread).1;
            && r.outcome == Completed
            && r.invocation.arguments == recorded.arguments
            && r.invocation.returnValue == recordedTarget(recorded.arguments).value
            && r.trace == [Fetched(lane), Proceeded(recorded.arguments), Fetched(lane)]
            && r.store.MemStore? && r.store.mem.cache.Some?
            && QueueOf(r.store.mem.cache.value, lane) == rest
  {
    RecordedEntryRestoresArguments(c, recorded, inv);
    var v := recordedTarget(recorded.arguments).value;
    assert c.decode(c.encode(v).value, v.runtimeType) == Ok(v);
  }

  /**
    Fault injection: replaying a recorded call that threw raises the
    recorded exception after the implementation ran on the recorded
    arguments, provided its type loads and is an exception type.
   */
  lemma ReplayRaisesRecordedFault(c: Codec, rt: Runtime, m: Mem.MemContext, reg: Registry, thread: int,
                                  inv: Invocation, target: Target, recorded: Invocation, recordedTarget: Target, rest: Queue)
    requires ValuesRoundTrip(c)
    requires !IsNullOrEmpty(m.replayID) && m.cache.Some?
    requires SameShape(recorded, inv)
    requires forall i :: 0 <= i < |recorded.arguments| ==> Serialize(c, recorded.arguments[i]).Ok?
    requires recordedTarget(recorded.arguments).Threw?
    requires var e := recordedTarget(recorded.arguments).error;
             && e.typeName != "" && e.typeName in rt.loadableTypes && e.typeName in rt.exceptionTypes
             && c.encode(AsObject(e)).Ok?
    requires target(recorded.arguments).Returned?
    requires QueueOf(m.cache.value, GetThreadIndex(reg, thread).1)
             == [Some(RecordedEntry(c, recorded)), Some(RecordedExit(c, recorded, recordedTarget))] + rest
    ensures var r := Replay.Intercept(c, rt, MemStore(m), reg, thread, inv, target);
            var lane := GetThreadIndex(reg, thread).1;
            && r.outcome == Raised(recordedTarget(recorded.arguments).error)
            && r.invocation.arguments == recorded.arguments
            && r.trace == [Fetched(lane), Proceeded(recorded.arguments), Fetched(lane)]
            && r.store.MemStore? && r.store.mem.cache.Some?
            && QueueOf(r.store.mem.cache.value, lane) == rest
  {
    RecordedEntryRestoresArguments(c, recorded, inv);
    var e := recordedTarget(recorded.arguments).error;
    assert c.decode(c.encode(AsObject(e)).value, e.typeName) == Ok(AsObject(e));
  }

  /**
    A call that returns null (every call of a void method) is recorded with
    an empty return value and no error type; replaying it asks the null
    return value for its type and throws, although the recorded call
    completed normally.
   */
  lemma ReplayOfNullReturnThrows(c: Codec, rt: Runtime, m: Mem.MemContext, reg: Registry, thread: int,
                                 inv: Invocation, target: Target, recorded: Invocation, recordedTarget: Target, rest: Queue)
    requires ValuesRoundTrip(c)
    requires !IsNullOrEmpty(m.replayID) && m.cache.Some?
    requires SameShape(recorded, inv)
    requires forall i :: 0 <= i < |recorded.arguments| ==> Serialize(c, recorded.arguments[i]).Ok?
    requires recordedTarget(recorded.arguments) == Returned(Null)
    requires target(recorded.arguments) == Returned(Null)
    requires QueueOf(m.cache.value, GetThreadIndex(reg, thread).1)
             == [Some(RecordedEntry(c, recorded)), Some(RecordedExit(c, recorded, recordedTarget))] + rest
    ensures RecordedExit(c, recorded, recordedTarget).returnValue == "" && RecordedExit(c, recorded, recordedTarget).errorType == ""
    ensures Replay.Intercept(c, rt, MemStore(m), reg, thread, inv, target).outcome == Raised(NullReferenceException)
  {
    RecordedEntryRestoresArguments(c, recorded, inv);
  }
}

=== FILE: replay_interceptor.dfy ===
/**
  `ReplayInterceptor`: while a replay session is open, each intercepted call
  takes the next entry of its thread's lane and, when that entry matches the
  call, overwrites the arguments with the recorded ones before the
  implementation runs. Only then does it take the following entry and
  overwrite the return value with the recorded one, or throw the recorded
  exception. A mismatch skips the rest of the override and lets the call
  finish normally; the implementation always runs.
 */
module ReplayInterceptor {
  import opened Values
  import opened ContextEntries
  import opened Serializer
  import opened LaneRegistry
  import opened Invocations
  import opened ContextStore
  import Http = HttpContextProvider

  /** Why an override was skipped. */
  datatype Mismatch =
    | MissingEntry
    | ClassMismatch
    | MethodMismatch
    | CountMismatch
    | ArgumentFailure(index: nat, error: Exception)

  /**
    The arguments after the entry override, and whether it was complete. A
    failure at some index leaves the arguments before it already overwritten.
   */
  datatype EntryOverride = Accepted(arguments: seq<Value>) | Rejected(why: Mismatch, arguments: seq<Value>)

  /** What the return override did when it did not throw. */
  datatype ReturnOverride = Kept(why: Mismatch) | Replaced(value: Value)

  /** One argument's override: deserialize the recorded text with the current argument's runtime type. */
  function Decoded(c: Codec, argument: Value, parameter: string): (r: Result<Value>)
    ensures argument.Null? ==> r == Err(NullReferenceException)
    ensures argument.Obj? ==> r == c.decode(parameter, argument.runtimeType)
  {
    match GetType(argument)
    case Err(e) => Err(e)
    case Ok(t) => c.decode(parameter, t)
  }

  /**
    The override loop from index `k` on. Each argument is replaced by its
    decoded parameter in turn; the first argument that cannot be decoded
    stops the loop with the arguments before it already replaced.
   */
  function OverrideFrom(c: Codec, args: seq<Value>, parameters: seq<string>, k: nat): (r: EntryOverride)
    requires |args| == |parameters| && k <= |args|
    ensures |r.arguments| == |args|
    ensures forall i :: 0 <= i < k ==> r.arguments[i] == args[i]
    ensures r.Accepted? <==> forall i :: k <= i < |args| ==> Decoded(c, args[i], parameters[i]).Ok?
    ensures r.Accepted? ==> forall i :: k <= i < |args| ==> Decoded(c, args[i], parameters[i]) == Ok(r.arguments[i])
    ensures r.Rejected? ==>
      && r.why.ArgumentFailure? && k <= r.why.index < |args|
      && Decoded(c, args[r.why.index], parameters[r.why.index]) == Err(r.why.error)
      && (forall i :: k <= i < r.why.index ==> Decoded(c, args[i], parameters[i]) == Ok(r.arguments[i]))
      && (forall i :: r.why.index <= i < |args| ==> r.arguments[i] == args[i])
    decreases |args| - k
  {
    if k == |args| then Accepted(args)
    else
      match Decoded(c, args[k], parameters[k])
      case Err(e) => Rejected(ArgumentFailure(k, e), args)
      case Ok(v) => OverrideFrom(c, args[k := v], parameters, k + 1)
  }

  /**
    `ProcessEntryOverride`. A null entry, another class or another method
    reject the override. An entry without parameters (an exit record read in
    the entry's place) dereferences null and throws. A different argument
    count rejects; otherwise the arguments are overridden one by one.
   */
  function ProcessEntryOverride(c: Codec, inv: Invocation, entry: Option<ContextEntry>): (r: Result<EntryOverride>)
    ensures entry.None? ==> r == Ok(Rejected(MissingEntry, inv.arguments))
    ensures entry.Some? && entry.value.className != inv.targetType ==> r == Ok(Rejected(ClassMismatch, inv.arguments))
    ensures r.Err? <==> entry.Some? && entry.value.className == inv.targetType && entry.value.methodName == inv.methodName
                        && IsExitRecord(entry.value)
    ensures r.Err? ==> r.error == NullReferenceException
    ensures entry.Some? && entry.value.className == inv.targetType && entry.value.methodName != inv.methodName ==>
              r == Ok(Rejected(MethodMismatch, inv.arguments))
    ensures entry.Some? && entry.value.className == inv.targetType && entry.value.methodName == inv.methodName
            && entry.value.inputParameters.Some? && |entry.value.inputParameters.value| != |inv.arguments| ==>
              r == Ok(Rejected(CountMismatch, inv.arguments))
    ensures entry.Some? && entry.value.className == inv.targetType && entry.value.methodName == inv.methodName
            && entry.value.inputParameters.Some? && |entry.value.inputParameters.value| == |inv.arguments| ==>
              r.Ok? && (r.value.Rejected? ==> r.value.why.ArgumentFailure?)
    ensures r.Ok? ==> |r.value.arguments| == |inv.arguments|
    ensures r.Ok? && r.value.Rejected? && !r.value.why.ArgumentFailure? ==> r.value.arguments == inv.arguments
    ensures r.Ok? && r.value.Rejected? && r.value.why.ArgumentFailure? ==>
      && entry.Some? && entry.value.inputParameters.Some? && |entry.value.inputParameters.value| == |inv.arguments|
      && r.value.why.index < |inv.arguments|
      && Decoded(c, inv.arguments[r.value.why.index], entry.value.inputParameters.value[r.value.why.index]) == Err(r.value.why.error)
      && (forall i :: 0 <= i < r.value.why.index ==>
            Decoded(c, inv.arguments[i], entry.value.inputParameters.value[i]) == Ok(r.value.arguments[i]))
      && (forall i :: r.value.why.index <= i < |inv.arguments| ==> r.value.arguments[i] == inv.arguments[i])
    ensures r.Ok? && r.value.Accepted? <==>
      && entry.Some? && entry.value.className == inv.targetType && entry.value.methodName == inv.methodName
      && entry.value.inputParameters.Some? && |entry.value.inputParameters.value| == |inv.arguments|
      && forall i :: 0 <= i < |inv.arguments| ==> Decoded(c, inv.arguments[i], entry.value.inputParameters.value[i]).Ok?
    ensures r.Ok? && r.value.Accepted? ==>
      forall i :: 0 <= i < |inv.arguments| ==> Decoded(c, inv.arguments[i], entry.value.inputParameters.value[i]) == Ok(r.value.arguments[i])
  {
    match entry
    case None => Ok(Rejected(MissingEntry, inv.arguments))
    case Some(e) =>
      if e.className != inv.targetType then Ok(Rejected(ClassMismatch, inv.arguments))
      else if e.methodName != inv.methodName then Ok(Rejected(MethodMismatch, inv.arguments))
      else if e.inputParameters.None? then Err(NullReferenceException)
      else if |e.inputParameters.value| != |inv.arguments| then Ok(Rejected(CountMismatch, inv.arguments))
      else Ok(OverrideFrom(c, inv.arguments, e.inputParameters.value, 0))
  }

  /**
    `ProcessReturnOverride`. A null entry, another class or another method
    keep the return value. An entry without error type replaces the return
    value with the recorded one, deserialized with the runtime type of the
    value the implementation returned (so a null return value throws). An
    entry with an error type throws the recorded exception, once the type
    loads and the text deserializes.
   */
  function ProcessReturnOverride(c: Codec, rt: Runtime, inv: Invocation, entry: Option<ContextEntry>): (r: Result<ReturnOverride>)
    ensures entry.None? ==> r == Ok(Kept(MissingEntry))
    ensures entry.Some? && entry.value.className != inv.targetType ==> r == Ok(Kept(ClassMismatch))
    ensures entry.Some? && entry.value.className == inv.targetType && entry.value.methodName != inv.methodName ==>
              r == Ok(Kept(MethodMismatch))
    ensures r.Ok? && r.value.Replaced? ==>
      && entry.Some? && entry.value.errorType == "" && inv.returnValue.Obj?
      && c.decode(entry.value.returnValue, inv.returnValue.runtimeType) == Ok(r.value.value)
    ensures entry.Some? && entry.value.className == inv.targetType && entry.value.methodName == inv.methodName ==>
      && (entry.value.errorType == "" && inv.returnValue.Null? ==> r == Err(NullReferenceException))
      && (entry.value.errorType == "" && inv.returnValue.Obj? ==>
            var decoded := c.decode(entry.value.returnValue, inv.returnValue.runtimeType);
            r == if decoded.Ok? then Ok(Replaced(decoded.value)) else Err(decoded.error))
      && (entry.value.errorType != "" ==> r.Err?)
      && (entry.value.errorType != "" && entry.value.errorType !in rt.loadableTypes ==> r == Err(TypeLoadException(entry.value.errorType)))
      && (entry.value.errorType != "" && entry.value.errorType in rt.loadableTypes
            && c.decode(entry.value.returnValue, entry.value.errorType).Ok? ==>
            r == Err(Thrown(rt, c.decode(entry.value.returnValue, entry.value.errorType).value)))
      && (entry.value.errorType != "" && entry.value.errorType in rt.loadableTypes
            && c.decode(entry.value.returnValue, entry.value.errorType).Err? ==>
            r == Err(c.decode(entry.value.returnValue, entry.value.errorType).error))
  {
    match entry
    case None => Ok(Kept(MissingEntry))
    case Some(e) =>
      if e.className != inv.targetType then Ok(Kept(ClassMismatch))
      else if e.methodName != inv.methodName then Ok(Kept(MethodMismatch))
      else if e.errorType == "" then
        match GetType(inv.returnValue)
        case Err(x) => Err(x)
        case Ok(t) =>
          match c.decode(e.returnValue, t)
          case Err(x) => Err(x)
          case Ok(v) => Ok(Replaced(v))
      else
        match ResolveType(rt, e.errorType)
        case Err(x) => Err(x)
        case Ok(t) =>
          match c.decode(e.returnValue, t)
          case Err(x) => Err(x)
          case Ok(v) => Err(Thrown(rt, v))
  }

  /** True when the store has a replay session open (or the lookup of one throws). */
  predicate Replaying(c: Codec, s: Store)
  {
    var step := GetReplayID(c, s);
    step.outcome.Err? || !IsNullOrEmpty(step.outcome.value)
  }

  /** `ReplayInterceptor.Intercept` on the calling thread `thread`. */
  function Intercept(c: Codec, rt: Runtime, s: Store, reg: Registry, thread: int, inv: Invocation, target: Target): (r: Interception<Store>)
    ensures ProceedsAtMostOnce(r.trace)
    ensures |r.invocation.arguments| == |inv.arguments|
    ensures r.invocation.targetType == inv.targetType && r.invocation.methodName == inv.methodName
  {
    var step := GetReplayID(c, s);
    match step.outcome
    case Err(e) => Interception(step.state, reg, inv, Raised(e), [])
    case Ok(id) =>
      if IsNullOrEmpty(id) then Passthrough(step.state, reg, inv, target)
      else
        var (reg1, lane) := GetThreadIndex(reg, thread);
        var first := GetNextEntry(c, step.state, lane);
        match first.outcome
        case Err(e) => Interception(first.state, reg1, inv, Raised(e), [Fetched(lane)])
        case Ok(entry) =>
          match ProcessEntryOverride(c, inv, entry)
          case Err(e) => Interception(first.state, reg1, inv, Raised(e), [Fetched(lane)])
          case Ok(ov) =>
            var inv1 := inv.(arguments := ov.arguments);
            var trace := [Fetched(lane), Proceeded(ov.arguments)];
            match Proceed(inv1, target)
            case Err(e) => Interception(first.state, reg1, inv1, Raised(e), trace)
            case Ok(inv2) =>
              if ov.Rejected? then Interception(first.state, reg1, inv2, Completed, trace)
              else
                var second := GetNextEntry(c, first.state, lane);
                match second.outcome
                case Err(e) => Interception(second.state, reg1, inv2, Raised(e), trace + [Fetched(lane)])
                case Ok(exit) =>
                  match ProcessReturnOverride(c, rt, inv2, exit)
                  case Err(e) => Interception(second.state, reg1, inv2, Raised(e), trace + [Fetched(lane)])
                  case Ok(Kept(_)) => Interception(second.state, reg1, inv2, Completed, trace + [Fetched(lane)])
                  case Ok(Replaced(v)) => Interception(second.state, reg1, inv2.(returnValue := v), Completed, trace + [Fetched(lane)])
  }

  /** With no replay session the call is passed through: nothing fetched, the implementation's exception reaches the caller. */
  lemma NotReplayingPassesThrough(c: Codec, rt: Runtime, s: Store, reg: Registry, thread: int, inv: Invocation, target: Target)
    requires !Replaying(c, s)
    ensures var r := Intercept(c, rt, s, reg, thread, inv, target);
            && r.store == GetReplayID(c, s).state && r.registry == reg
            && r.trace == [Proceeded(inv.arguments)]
            && (target(inv.arguments).Returned? ==> r.outcome == Completed && r.invocation.returnValue == target(inv.arguments).value)
            && (target(inv.arguments).Threw? ==> r.outcome == Raised(target(inv.arguments).error))
  {
  }

  /**
    A rejected entry override fails open: the implementation runs on the
    arguments as the override left them, its exception reaches the caller,
    and no second entry is taken, so the unread exit record stays at the
    head of the lane.
   */
  lemma RejectedOverrideFailsOpen(c: Codec, rt: Runtime, s: Store, reg: Registry, thread: int, inv: Invocation, target: Target,
                                  entry: Option<ContextEntry>, ov: EntryOverride)
    requires Replaying(c, s) && GetReplayID(c, s).outcome.Ok?
    requires GetNextEntry(c, GetReplayID(c, s).state, GetThreadIndex(reg, thread).1).outcome == Ok(entry)
    requires ProcessEntryOverride(c, inv, entry) == Ok(ov) && ov.Rejected?
    ensures var r := Intercept(c, rt, s, reg, thread, inv, target);
            var lane := GetThreadIndex(reg, thread).1;
            var first := GetNextEntry(c, GetReplayID(c, s).state, lane);
            var args := ov.arguments;
            && r.store == first.state
            && r.trace == [Fetched(lane), Proceeded(args)]
            && (target(args).Returned? ==> r.outcome == Completed && r.invocation == inv.(arguments := args, returnValue := target(args).value))
            && (target(args).Threw? ==> r.outcome == Raised(target(args).error))
  {
  }

  /**
    An exit record read where an entry record was expected throws before
    the implementation runs: the call is neither performed nor overridden.
   */
  lemma MisreadExitRecordThrows(c: Codec, rt: Runtime, s: Store, reg: Registry, thread: int, inv: Invocation, target: Target, exit: ContextEntry)
    requires Replaying(c, s) && GetReplayID(c, s).outcome.Ok?
    requires GetNextEntry(c, GetReplayID(c, s).state, GetThreadIndex(reg, thread).1).outcome == Ok(Some(exit))
    requires IsExitRecord(exit) && exit.className == inv.targetType && exit.methodName == inv.methodName
    ensures var r := Intercept(c, rt, s, reg, thread, inv, target);
            && r.outcome == Raised(NullReferenceException)
            && r.invocation == inv
            && r.trace == [Fetched(GetThreadIndex(reg, thread).1)]
  {
  }

  /**
    An accepted entry override: the implementation runs exactly once, on the
    recorded arguments; when it returns, a second entry is taken from the
    same lane and the return override decides the outcome. When it throws,
    the exception reaches the caller and nothing more is taken.
   */
  lemma AcceptedOverrideReadsExit(c: Codec, rt: Runtime, s: Store, reg: Registry, thread: int, inv: Invocation, target: Target,
                                  entry: Option<ContextEntry>, ov: EntryOverride)
    requires Replaying(c, s) && GetReplayID(c, s).outcome.Ok?
    requires GetNextEntry(c, GetReplayID(c, s).state, GetThreadIndex(reg, thread).1).outcome == Ok(entry)
    requires ProcessEntryOverride(c, inv, entry) == Ok(ov) && ov.Accepted?
    ensures var r := Intercept(c, rt, s, reg, thread, inv, target);
            var lane := GetThreadIndex(reg, thread).1;
            var first := GetNextEntry(c, GetReplayID(c, s).state, lane);
            var args := ov.arguments;
            var second := GetNextEntry(c, first.state, lane);
            && r.registry == GetThreadIndex(reg, thread).0
            && (target(args).Threw? ==>
                  && r.store == first.state
                  && r.trace == [Fetched(lane), Proceeded(args)]
                  && r.outcome == Raised(target(args).error))
            && (target(args).Returned? ==>
                  var inv2 := inv.(arguments := args, returnValue := target(args).value);
                  && r.store == second.state
                  && r.trace == [Fetched(lane), Proceeded(args), Fetched(lane)]
                  && (second.outcome.Err? ==> r.outcome == Raised(second.outcome.error) && r.invocation == inv2)
                  && (second.outcome.Ok? ==>
                        var ret := ProcessReturnOverride(c, rt, inv2, second.outcome.value);
                        && (ret.Err? ==> r.outcome == Raised(ret.error) && r.invocation == inv2)
                        && (ret.Ok? && ret.value.Kept? ==> r.outcome == Completed && r.invocation == inv2)
                        && (ret.Ok? && ret.value.Replaced? ==>
                              r.outcome == Completed && r.invocation == inv2.(returnValue := ret.value.value))))
  {
  }

  /**
    A store that throws while the replay id is read, or while the first
    entry is taken, makes the call throw that exception before the
    implementation runs.
   */
  lemma StoreFailureRaises(c: Codec, rt: Runtime, s: Store, reg: Registry, thread: int, inv: Invocation, target: Target)
    ensures var r := Intercept(c, rt, s, reg, thread, inv, target);
            var step := GetReplayID(c, s);
            var lane := GetThreadIndex(reg, thread).1;
            && (step.outcome.Err? ==>
                  r.outcome == Raised(step.outcome.error) && r.trace == [] && r.invocation == inv && r.store == step.state)
            && (step.outcome.Ok? && !IsNullOrEmpty(step.outcome.value) && GetNextEntry(c, step.state, lane).outcome.Err? ==>
                  && r.outcome == Raised(GetNextEntry(c, step.state, lane).outcome.error)
                  && r.trace == [Fetched(lane)]
                  && r.invocation == inv
                  && r.store == GetNextEntry(c, step.state, lane).state)
  {
  }

  /**
    A request without the replay header, or with no value in it, is not
    replayed: the call passes straight through to the implementation.
   */
  lemma HttpWithoutReplayHeaderPassesThrough(c: Codec, rt: Runtime, h: Http.HttpContext, reg: Registry, thread: int, inv: Invocation, target: Target)
    requires var name := Http.ContextIdHeader(Http.ReplayingType);
             name !in h.requestHeaders || |h.requestHeaders[name]| == 0
    ensures var r := Intercept(c, rt, HttpStore(h), reg, thread, inv, target);
            && r.store == HttpStore(h) && r.registry == reg
            && r.trace == [Proceeded(inv.arguments)]
            && (target(inv.arguments).Returned? ==> r.outcome == Completed && r.invocation.returnValue == target(inv.arguments).value)
            && (target(inv.arguments).Threw? ==> r.outcome == Raised(target(inv.arguments).error))
  {
    assert Http.GetReplayID(h) == "";
    NotReplayingPassesThrough(c, rt, HttpStore(h), reg, thread, inv, target);
  }
}

=== FILE: serializer.dfy ===
/**
  The object serializer the engine and the stores share. The JSON and BSON
  implementations are not modelled: the codec is a pair of uninterpreted
  conversions for argument and return values and a pair for context
  entries, and the facts the round-trip lemmas need are stated as
  explicit predicates on it.
 */
module Serializer {
  import opened Values
  import opened ContextEntries

  datatype Codec = Codec(
    /** Serialization of a non-null object; it may throw. */
    encode: Value -> Result<string>,
    /** `Deserialize(text, type)`; it may throw. */
    decode: (string, TypeName) -> Result<Value>,
    /** Serialization of a non-null context entry. */
    encodeEntry: ContextEntry -> string,
    /** `Deserialize(text, typeof(ContextEntry))`; the result may be null. */
    decodeEntry: string -> Result<Option<ContextEntry>>)

  /** `Serialize(value)`: both serializers answer "" for null before encoding. */
  function Serialize(c: Codec, v: Value): (r: Result<string>)
    ensures v.Null? ==> r == Ok("")
  {
    if v.Null? then Ok("") else c.encode(v)
  }

  /** `Serialize(contextEntry)` for a possibly-null entry. */
  function SerializeEntry(c: Codec, e: Option<ContextEntry>): (r: string)
    ensures e.None? ==> r == ""
  {
    match e
    case None => ""
    case Some(x) => c.encodeEntry(x)
  }

  /** True when `s` holds no line terminator, so `WriteLine(s)` writes exactly one line. */
  predicate IsOneLine(s: string)
  {
    forall i :: 0 <= i < |s| ==> s[i] != '\n' && s[i] != '\r'
  }

  /**
    The codec assumption behind the line format: a serialized entry is a
    single non-empty line and deserializes to the same entry.
   */
  ghost predicate EntriesRoundTrip(c: Codec)
  {
    forall e: ContextEntry ::
      c.encodeEntry(e) != "" && IsOneLine(c.encodeEntry(e)) && c.decodeEntry(c.encodeEntry(e)) == Ok(Some(e))
  }

  /**
    The codec assumption behind replay: an object that serializes at all is
    restored exactly when deserialized with its own runtime type.
   */
  ghost predicate ValuesRoundTrip(c: Codec)
  {
    forall v: Value :: v.Obj? && c.encode(v).Ok? ==> c.decode(c.encode(v).value, v.runtimeType) == Ok(v)
  }
}

=== FILE: values.dfy ===
/**
  Runtime values, exceptions and reflection, as far as the record/replay
  engine observes them. Objects are opaque: the engine only ever asks an
  object for its runtime type, hands it to the serializer, or throws it.
 */
module Values {

  /** An assembly-qualified type name, the identity reflection works with. */
  type TypeName = string

  /** The conventional Some/None datatype, standing in for a nullable reference. */
  datatype Option<+T> = None | Some(value: T)

  /** An object reference: null, or an instance of a runtime type with an opaque state. */
  datatype Value = Null | Obj(runtimeType: TypeName, state: string)

  /** A thrown exception object (a `throw` never carries null). */
  datatype Exception = Exception(typeName: TypeName, state: string)

  /** Either a value or the exception that aborted the computation of it. */
  datatype Result<+T> = Ok(value: T) | Err(error: Exception)

  /** A stateful step: the state after the step, whether or not the step threw. */
  datatype Step<+S, +T> = Step(state: S, outcome: Result<T>)

  const NullReferenceException: Exception := Exception("System.NullReferenceException", "")
  const InvalidCastException: Exception := Exception("System.InvalidCastException", "")

  function TypeLoadException(name: string): Exception
  {
    Exception("System.TypeLoadException", name)
  }

  function FileNotFoundException(fileName: string): Exception
  {
    Exception("System.IO.FileNotFoundException", fileName)
  }

  /** An exception seen as an ordinary object, e.g. when it is serialized. */
  function AsObject(e: Exception): Value
  {
    Obj(e.typeName, e.state)
  }

  /** `string.IsNullOrEmpty`, with `None` for a null string. */
  predicate IsNullOrEmpty(s: Option<string>)
  {
    s.None? || s.value == ""
  }

  /**
    The reflection facts the engine depends on: which type names
    `Type.GetType(name, true, false)` can load, and which types derive
    from `System.Exception`.
   */
  datatype Runtime = Runtime(loadableTypes: set<TypeName>, exceptionTypes: set<TypeName>)

  /** `value.GetType()`: dereferencing null throws. */
  function GetType(v: Value): (r: Result<TypeName>)
    ensures v.Null? <==> r == Err(NullReferenceException)
    ensures v.Obj? ==> r == Ok(v.runtimeType)
  {
    match v
    case Null => Err(NullReferenceException)
    case Obj(t, _) => Ok(t)
  }

  /** `Type.GetType(name, throwOnError: true, ignoreCase: false)`. */
  function ResolveType(rt: Runtime, name: string): (r: Result<TypeName>)
    ensures r.Ok? <==> name in rt.loadableTypes
    ensures r.Ok? ==> r.value == name
    ensures r.Err? ==> r.error == TypeLoadException(name)
  {
    if name in rt.loadableTypes then Ok(name) else Err(TypeLoadException(name))
  }

  /**
    The exception that `throw (Exception)v;` raises: `v` itself when it is an
    exception object, an InvalidCastException when it is some other object,
    and a NullReferenceException when it is null.
   */
  function Thrown(rt: Runtime, v: Value): (e: Exception)
    ensures v.Obj? && v.runtimeType in rt.exceptionTypes ==> AsObject(e) == v
    ensures v.Obj? && v.runtimeType !in rt.exceptionTypes ==> e == InvalidCastException
    ensures v.Null? ==> e == NullReferenceException
  {
    match v
    case Null => NullReferenceException
    case Obj(t, s) => if t in rt.exceptionTypes then Exception(t, s) else InvalidCastException
  }
}
